=== FILE: README.md ===
# Plug in-page provider: a Dafny model of its core

This project models the core of Plug's in-page provider. That is the bridge a dapp loads in
the page to talk to the Plug wallet, an out-of-process signer for the Internet Computer. The
bridge:

- computes Internet Computer request ids, the representation-independent "hash of map";
- guards its signing identity with a canister whitelist, and wraps each signed body in the
  `{content, sender_pubkey, sender_sig}` envelope;
- shapes the sign info shown to the user;
- replaces an agent's `call`, `query` and `readState` with requests sent over the transport;
- routes transport failures to the timeout or error handler;
- keeps the connection session;
- runs a batch of transactions after one approval.

The model is functional. Every transport round trip takes the signer's reply as an input. Every
operation returns the trace of messages it dispatched (`seq<Protocol.Dispatch>`), so "the
signer is never asked" is a statement about an empty trace. The foreign libraries are bundled
as total functions in `Foreign.Library`:

- SHA-256, with a 32-byte result;
- hex decoding;
- secp256k1 DER encoding;
- self-authenticating principals and their text form;
- account ids;
- base64;
- Candid encode and decode;
- the bigint conversion.

Properties of these libraries appear only as explicit preconditions, such as
`Foreign.Base64RoundTrip`. UTF-8 and unsigned LEB128 are written out, so the hashes of strings
and numbers are concrete.

Modules, one per component:

- `Bytes`: `concat`.
- `ByteOrder`: `compare`.
- `Utf8` and `Leb128`: the byte encodings.
- `JsValue`: JavaScript values and their truthiness.
- `KeySort`: the sort by hashed key.
- `RequestId` and `RequestIdProperties`: src/utils/request_id.ts.
- `Protocol`: the transport's handler requests.
- `Rpc`: src/modules/RPCManager/index.ts and the provider's `callClientRPC`.
- `Identity`: src/identity.ts.
- `Sign`: src/utils/sign.ts.
- `AgentProxy`: the call, query and read-state proxies of src/utils/factories/agent.ts and
  src/utils/agent.ts.
- `Agent`: the rest of src/utils/agent.ts.
- `Session`: src/modules/SessionManager/index.ts.
- `Transactions` and `Batch`: the batch loop.
- `Provider`: src/Provider/index.ts.

## Model

| member | source | states |
|---|---|---|
| `Bytes.Concat` | src/utils/request_id.ts:12-20 | The result's length is the sum of the input lengths. Each input sits at the offset equal to the total length of the inputs before it. No inputs give the empty buffer, and one input gives exactly its bytes. The copying loop produces the inputs laid end to end. |
| `Bytes.FlattenLayout` | src/utils/buffer.ts:5-15 | The duplicate `concat` has the same layout: the length is the sum of the lengths, and input `i` occupies the bytes from its offset on. |
| `ByteOrder.Compare` | src/utils/request_id.ts:22-35 | `compare` is 0 exactly on equal buffers; buffers of different lengths are ordered by length; on equal lengths the result is negative exactly when the first buffer is lexicographically smaller. |
| `ByteOrder.CompareZeroIff` | src/utils/request_id.ts:22-35 | `compare` is 0 exactly when the two buffers are byte-equal. |
| `ByteOrder.CompareSwap` | src/utils/request_id.ts:22-35 | Swapping the arguments negates the result, so the order is antisymmetric. |
| `ByteOrder.CompareTransitive` | src/utils/request_id.ts:22-35 | The order `compare(a, b) <= 0` is transitive. |
| `ByteOrder.CompareLexicographic` | src/utils/request_id.ts:27-34 | On buffers of equal length, a negative result means exactly that the buffers agree up to some byte and the first one is smaller there. |
| `ByteOrder.CompareByLength` | src/utils/request_id.ts:23-25 | Buffers of different lengths are ordered by length alone. |
| `Utf8.EncodeChar` | src/utils/request_id.ts:92-95 | `TextEncoder` writes 1 to 4 bytes per character. A character takes one byte exactly when it is ASCII, and every continuation byte lies in 0x80..0xBF. |
| `Utf8.EncodeAscii` | src/identity.ts:24 | An ASCII string encodes to its own code points, one byte each. |
| `Leb128.RoundTrip` | src/utils/request_id.ts:61 | The LEB128 encoding that numbers are hashed through is well formed and decodes back to the number. |
| `Leb128.EncodeInjective` | src/utils/request_id.ts:83 | Distinct non-negative integers have distinct LEB128 encodings. |
| `RequestId.HashValue` | src/utils/request_id.ts:55-90 | `hashValue` succeeds exactly on the values `Hashable` admits, a definition by kind:<br>- strings, buffers and principals;<br>- non-negative numbers and bigints;<br>- tagged values whose content is hashable;<br>- objects whose `toHash()` result is hashable;<br>- arrays whose elements are all hashable. |
| `RequestId.HashItems` | src/utils/request_id.ts:64-66 | Hashing a list's elements succeeds exactly when every element is hashable, with one digest per element. |
| `RequestId.Defined` | src/utils/request_id.ts:106 | No entry left after the filter has an `undefined` value. |
| `RequestId.HashEntries` | src/utils/request_id.ts:105-112 | Hashing the entries succeeds exactly when every value is hashable. It then gives each entry's key hash and value hash, in entry order. |
| `RequestId.HashString` | src/utils/request_id.ts:92-95 | A string hashes as SHA-256 of its UTF-8 bytes; a string of ASCII characters hashes as its code points, one byte each. |
| `RequestId.RequestIdOf` | src/utils/request_id.ts:104-123 | `requestIdOf` succeeds exactly when every defined value is hashable. |
| `RequestIdProperties.ScalarHashes` | src/utils/request_id.ts:58-95 | Hashes of scalar values:<br>- a string hashes SHA-256 of its UTF-8 bytes;<br>- a non-negative number or bigint hashes a well-formed LEB128 string that decodes back to it;<br>- a negative one is an error;<br>- a buffer or principal hashes its raw bytes. |
| `RequestIdProperties.DelegatedHashes` | src/utils/request_id.ts:56-74 | A `borc.Tagged` wrapper is transparent. An object with `toHash` hashes as the value `toHash()` returns. |
| `RequestIdProperties.UnsupportedValues` | src/utils/request_id.ts:85-89 | The following raise the unsupported-type error carrying the value: booleans, `null`, `undefined`, and plain objects (nested maps included). |
| `RequestIdProperties.HashItemsInOrder` | src/utils/request_id.ts:65 | Digest `i` of a list is the hash of element `i`. |
| `RequestIdProperties.HashListInOrder` | src/utils/request_id.ts:64-66 | A list hashes to SHA-256 of its element hashes concatenated in list order. |
| `RequestIdProperties.DefinedSkipsUndefined` | src/utils/request_id.ts:106 | Inserting an `undefined` field anywhere leaves the filtered entries unchanged. |
| `RequestIdProperties.UndefinedFieldIgnored` | src/utils/request_id.ts:106 | Adding or removing an `undefined` field anywhere leaves the request id unchanged. |
| `RequestIdProperties.DefinedPermutation` | src/utils/request_id.ts:105-106 | Reordered entries leave the same defined entries, up to order. |
| `RequestIdProperties.HashablePermutation` | src/utils/request_id.ts:107-112 | Whether every entry can be hashed does not depend on entry order. |
| `RequestIdProperties.OrderIndependent` | src/utils/request_id.ts:116-122 | Suppose the hashed keys are pairwise distinct. Then two orderings of the same entries either both fail, or both give the same request id. |
| `KeySort.Sort` | src/utils/request_id.ts:116-118 | The sort by hashed key returns a permutation of its input, in non-decreasing `compare` order of the keys. Distinct keys stay distinct. |
| `KeySort.SortedUnique` | src/utils/request_id.ts:116-118 | Two sorted permutations of one list with distinct keys are equal. The sorted order is unique. |
| `Protocol.Args` | src/utils/factories/agent.ts:43-56 | A `requestCall` carries the metadata, then the envelope. With the batch tag, these are followed by the `batchTxId` text and the decoded arguments, or `undefined` when there are none. There are four arguments with the tag, two without. |
| `Rpc.NewManager` | src/modules/RPCManager/index.ts:14-17 | Constructing the manager starts the transport once. |
| `Rpc.HandlerFor` | src/modules/RPCManager/index.ts:24-26 | A failure goes to `handleTimeout` exactly when its message is "Request Timeout". Every other failure goes to `handleError`, including a null error and an absent message. |
| `Rpc.Call` | src/modules/RPCManager/index.ts:19-36 | The call is dispatched once, with the given config or the default `{timeout: 0, target: ""}`. A resolved reply is returned unchanged, with no other dispatch. A rejection adds exactly one error-handler dispatch with `[metadata, message]` and the default config. |
| `Rpc.ClientCall` | src/Provider/index.ts:61-87 | The provider's own routing works the same way, with the given config. It fails, calling no handler, exactly on a null rejection, because it reads `error.message` unguarded. |
| `Identity.NewIdentity` | src/identity.ts:28-37 | A fresh identity holds the raw key decoded from the hex text and has no cached principal. A given whitelist is stored as it is; a null or undefined one is stored as empty. |
| `Identity.GetPrincipal` | src/identity.ts:57-62 | A cached principal is returned with the identity unchanged. Otherwise the self-authenticating principal of the DER key is derived and cached. |
| `Identity.PrincipalDerivedOnce` | src/identity.ts:57-62 | Over any number of `getPrincipal()` calls the principal is derived at most once, never when one is already cached, and every call returns the same principal. |
| `Identity.DomainSeparatorBytes` | src/identity.ts:24 | The domain separator is the 11 bytes 0x0A followed by "ic-request". |
| `Identity.Gate` | src/identity.ts:72-86 | A request passes exactly when it is a `read_state`, or its canister's text form is in the whitelist. A refusal names that canister (the 401 error). |
| `Identity.PrincipalField` | src/identity.ts:45-50 | A falsy sender or canister id is passed through as is. A principal is replaced by its text form. |
| `Identity.SignInfoOf` | src/identity.ts:43-53 | `sign` forwards `method_name`, `request_type` and `arg` from the body, always with `manual: false`. The sender and the canister id are forwarded as `PrincipalField` converts them. It fails exactly when a truthy sender or canister id is neither text nor a principal. |
| `Identity.SignForwardsPrincipals` | src/identity.ts:43-53 | When the sender and canister id are principals, the sign info carries their text forms, with the body's method name and request type. |
| `Identity.SignAdmitted` | src/identity.ts:87-101 | Once the gate has passed, the callback is called once exactly when the body hashes and its sign info can be built, and the payload is the domain separator followed by the request id. The request is signed exactly when the callback returns a signature. Any failure is a hashing error, a malformed principal or a rejected signature. |
| `Identity.TransformRequest` | src/identity.ts:69-103 | A request the gate refuses fails with the gate's error and no sign call. Otherwise at most one sign call is made, and its payload is the domain separator followed by the request id. On success the other fields are unchanged, and the body is `{content: body, sender_pubkey: DER key, sender_sig}`. A request that passes the gate never fails with a whitelist error. |
| `Identity.SignedIff` | src/identity.ts:77-101 | A request is signed exactly when all of these hold:<br>- it passes the gate;<br>- it hashes;<br>- its sign info can be built;<br>- the callback returns a signature. |
| `Identity.NotWhitelistedRejected` | src/identity.ts:77-86 | A request that is not `read_state`, whose canister is outside the whitelist, gets the 401 error naming that canister, and no sign call. |
| `Identity.ReadStateSkipsGate` | src/identity.ts:78 | A `read_state` request is never refused by the whitelist. |
| `Identity.NoWhitelistSignsOnlyReadState` | src/identity.ts:77-86 | An identity built without a whitelist signs no request other than `read_state`. |
| `Identity.SignedPayloadLayout` | src/identity.ts:88-92 | The signed payload is 43 bytes: the 11-byte separator, then the 32-byte request id. |
| `Sign.CanDecodeArgs` | src/utils/sign.ts:28-38 | The JavaScript truthiness test holds exactly when all of these hold:<br>- the sign info is present;<br>- its canister id and method name are non-empty;<br>- its arguments are present;<br>- `argsTypes[canisterId][methodName]` exists. |
| `Sign.DecodeArgs` | src/utils/sign.ts:66-76 | The arguments are decoded, with the recorded argument types, exactly when `canDecodeArgs` holds. Otherwise the result is undefined. |
| `Sign.PreparedSignInfo` | src/utils/sign.ts:83-90 | `preApprove` is always added, and the other fields are kept. Sign info without arguments gets `decodedArguments = []`. Sign info with arguments gets decoded arguments exactly when they can be decoded. These are `recursiveParseBigint` of the Candid decoding with the recorded argument types. Absent sign info becomes `{preApprove}`. |
| `Sign.SignFactory` | src/utils/sign.ts:78-93 | One `requestSign` dispatch goes out with the payload and the prepared sign info, where `preApprove` defaults to false. The only other dispatches are error handlers. The signature is the resolved reply. |
| `Sign.FindMethod` | src/utils/sign.ts:45-47 | The search finds the first method of the given name. It finds none exactly when no method has that name. |
| `Sign.GetSignInfoFromTransaction` | src/utils/sign.ts:40-64 | The transaction's sign info:<br>- `methodName` is the transaction's method name;<br>- `requestType` is "unknown" and `preApprove` is false;<br>- canister id and sender are copied;<br>- `decodedArguments` is the argument array, or undefined for a builder;<br>- the encoded arguments are empty unless the arguments are an array and the interface has the method. |
| `Sign.GetArgTypes` | src/utils/sign.ts:95-102 | Exactly the service's method names are mapped, each to the argument types of its last declaration. |
| `Sign.ArgTypesAgreeWithFind` | src/utils/sign.ts:95-102 | With distinct method names, a name is recorded exactly when `find` locates it, and with the same argument types. |
| `Sign.ArgTypesLastWins` | src/utils/sign.ts:98-100 | A repeated method name keeps the last declaration's types, while `find` sees the first. |
| `AgentProxy.SubmitResult` | src/utils/factories/agent.ts:58-65 | An error envelope throws its `message`, and nothing is decoded. Otherwise `requestId` is base64-decoded and the other fields pass through. |
| `AgentProxy.FactoryCall` | src/utils/factories/agent.ts:23-66 | The batch-aware proxy fails before dispatching exactly when an idl is given without the method. Otherwise it sends one `requestCall` with these arguments:<br>- the metadata;<br>- the envelope, with the argument in base64;<br>- `batchTxId`, default "";<br>- the decoded arguments, present exactly when an idl is given. |
| `AgentProxy.AgentCall` | src/utils/agent.ts:45-90 | The agent's proxy sends one `requestCall` with the metadata and the envelope. The envelope holds the text canister id and an effective canister id: text kept, a principal printed, absence kept. |
| `AgentProxy.CallArgsShared` | src/utils/factories/agent.ts:43-56 | The batch-aware proxy's `requestCall` starts with the agent proxy's two arguments, metadata and envelope. Without an idl, these are followed by the batch id (default "") and `undefined`. |
| `AgentProxy.CallProxiesAgree` | src/utils/agent.ts:69-80 | The two call proxies return the same result. They send the same request, apart from the batch tag. |
| `AgentProxy.CallRequestIdRoundTrip` | src/utils/agent.ts:82-89 | Given a base64 round trip, a successful call returns exactly the request id bytes the signer encoded, with the other fields. |
| `AgentProxy.CallArgRoundTrip` | src/utils/agent.ts:65-67 | The argument the signer receives decodes back to the call's `arg`. |
| `AgentProxy.Query` | src/utils/factories/agent.ts:68-100 | One `requestQuery` is sent. An error envelope throws its message. A `replied` status has `reply.arg` base64-decoded, and fails if the reply is missing. Any other status is returned unchanged. |
| `AgentProxy.QueryReplyRoundTrip` | src/utils/agent.ts:114-125 | A replied query returns the reply bytes the signer encoded. |
| `AgentProxy.ReadState` | src/utils/factories/agent.ts:102-134 | No path group means a failure before dispatch. Otherwise one `requestReadState` carries the first path group in base64, and the result is only the decoded certificate. |
| `AgentProxy.ReadStatePathsRoundTrip` | src/utils/agent.ts:138-140 | The paths sent decode back to the first path group, in order. |
| `Agent.BackendOf` | src/utils/agent.ts:165-173 | `PlugAgent` serves exactly `call`, `query` and `readState` through the transport. |
| `Agent.PrivateCreateAgent` | src/utils/agent.ts:175-200 | The defaults are `preApprove` false, whitelist `[]` and host `IC_MAINNET_URLS[0]`. The root key is fetched exactly when the host is not in `IC_MAINNET_URLS`. |
| `Agent.DefaultsUseMainnet` | src/utils/agent.ts:38-43 | With every default, the agent uses "https://mainnet.dfinity.network", fetches no root key, has an empty whitelist and does not pre-approve. |
| `Agent.RootKeyExamples` | src/utils/agent.ts:196-198 | A local host fetches the root key. The proxy host does not. |
| `Agent.CreateAgent` | src/utils/agent.ts:202-225 | Exactly one `verifyWhitelist` goes out first, with the same whitelist (default `[]`). The identity is then built from the returned key and that whitelist, with the host default and the `preApprove` default false. |
| `Agent.SignThroughAgent` | src/utils/agent.ts:183-187 | A dispatch happens exactly when the request passes the gate, hashes, and yields sign info. A request the gate refuses reaches no transport. A sign dispatch carries the identity's payload and sign info, prepared with the agent's `preApprove`. The request is signed exactly when that dispatch is resolved. |
| `Agent.AgentGateBeforeSign` | src/utils/agent.ts:212-223 | An agent created for a whitelist sends nothing for a request to a canister outside it. When it does sign, it uses the `preApprove` it was created with. |
| `Session.NewSessionManager` | src/modules/SessionManager/index.ts:31-37 | The defaults are host `IC_MAINNET_URLS[0]`, whitelist `[]` and timeout 120000. Because the code uses `||`, an empty host and a zero timeout also take the defaults. A given whitelist is stored as it is. The manager starts not updating and without a session. |
| `Session.CreateSession` | src/modules/SessionManager/index.ts:43-57 | The session is replaced in one step by `{agent, principalId, accountId}`. The agent uses the stored whitelist and the stored host, or the proxy host when none is stored. The agent's identity holds the raw key decoded from the hex key. `principalId` and `accountId` are the text and the account id of the self-authenticating principal of that key's DER form. |
| `Session.GetConnectionData` | src/modules/SessionManager/index.ts:61-78 | While updating, nothing is sent and the state is unchanged. Otherwise `getConnectionData` is sent. A reply with a public key is adopted, with whitelist default `[]` and timeout default 120000, and the session is rebuilt from that key: the agent over the decoded key with the adopted whitelist and `host || PLUG_PROXY_HOST`, and the ids of the key's self-authenticating principal. Without a key, the state is untouched and no session is returned. |
| `Session.RequestConnect` | src/modules/SessionManager/index.ts:80-93 | One `requestConnect` is sent. Host, whitelist and timeout are replaced by the arguments, with defaults `PLUG_PROXY_HOST`, `[]` and 120000. The session and the echoed connection come from the returned key: the agent over the decoded key with the requested whitelist and `host || PLUG_PROXY_HOST`, and the ids of the key's self-authenticating principal. |
| `Session.RequestConnectReplacesWhitelist` | src/modules/SessionManager/index.ts:88-90 | A canister in the old whitelist but not in the requested one is gone afterwards: the whitelist is never merged. |
| `Session.Disconnect` | src/modules/SessionManager/index.ts:95-103 | One `disconnect` is sent, and the session is cleared whatever the reply. |
| `Session.GetSession` | src/modules/SessionManager/index.ts:39-41 | `getSession` returns the stored session and changes nothing; `Session.CreateSession` ensures it then returns the new session, and `Session.Disconnect` ensures it then returns none. |
| `Session.GetSessionAfterConnect` | src/modules/SessionManager/index.ts:39-103 | `getSession` after a successful `requestConnect` returns the session built from the returned key, with the requested whitelist and host; after `disconnect` it returns none. |
| `Session.ConnectThenDisconnect` | src/modules/SessionManager/index.ts:80-103 | Connecting and then disconnecting keeps the requested settings and leaves no session. |
| `Session.FreshManagerAsks` | src/modules/SessionManager/index.ts:65-69 | A newly built manager always asks the signer for connection data. |
| `Batch.Catch` | src/Provider/index.ts:309-314 | `onFail(error, prev)` is called once when it is defined, then the batch stops. The whole batch rejects exactly when that call throws. Without `onFail`, the batch just stops. |
| `Batch.AfterResponse` | src/Provider/index.ts:300-308 | Without `onSuccess`, the transaction continues with the chain unchanged. Otherwise `onSuccess(response)` is called first, and the transaction continues exactly when that call does not throw. A truthy result is appended to the chain with this transaction's index. A throw goes to the catch block, and `onFail` is called on the thrown error. |
| `Batch.Invoke` | src/Provider/index.ts:284-308 | The method is invoked once, with the given arguments, before anything else happens. The transaction continues exactly when neither the call nor `onSuccess` throws. A resolved call with no `onSuccess` keeps the chain. A thrown error goes to the catch block, which calls `onFail(error, prev)` and stops. |
| `Batch.Step` | src/Provider/index.ts:279-315 | Each kind of arguments is handled as follows:<br>- a builder is called with the chain so far;<br>- an array is passed verbatim;<br>- any other value makes `onFail` get the invalid-arguments message, and the batch stops.<br>A transaction continues exactly when its arguments are valid and nothing in the `try` block throws. The chain is then extended as `ChainAfter` defines. It rejects the batch exactly when `onFail` throws on the caught error, and `onFail(error, prev)` is its last event. |
| `Batch.Run` | src/Provider/index.ts:269-316 | Transactions run in order. Transaction `j` continues exactly when it completes on the chain built by the transactions before it. The last one started aborts exactly when its `onFail` threw. Every one before the last started one continued, and the batch stops early only when that one did not. Each builder and `onFail` sees exactly the chain entries of earlier transactions. The chain's indices increase, each being its transaction's position. |
| `Batch.FirstFailure` | src/Provider/index.ts:269-316 | A batch run from the start runs until the first transaction that does not complete, which is the last to start:<br>- every earlier one completed on the chain it saw;<br>- a batch that stopped early ended on a failure;<br>- a completed last transaction means every transaction ran;<br>- no event belongs to a later transaction;<br>- the batch is rejected exactly when that last one's `onFail` threw. |
| `Provider.NewProvider` | src/Provider/index.ts:32-36 | Constructing the provider starts the transport once, with no agent, principal or idls. |
| `Provider.GetPrincipal` | src/Provider/index.ts:112-133 | A stored principal is returned with no dispatch. Otherwise one `getPrincipal` is sent with `{timeout: 0, target: ""}`. The answer is then handled as follows:<br>- a non-empty answer is returned as text when `asString` is set, and as a principal otherwise;<br>- an empty answer, or one an error handler took, fails because `Principal.from` throws;<br>- a null rejection fails in `callClientRPC`. |
| `Provider.StoredAgreesWithSigner` | src/Provider/index.ts:114-131 | A stored principal gets the same answer the signer's reply with that text would give, without the round trip. |
| `Provider.CachedPrincipalNoRpc` | src/Provider/index.ts:114-116 | A cached principal never reaches the transport. |
| `Provider.AdoptAgent` | src/Provider/index.ts:180-182 | The agent's principal text and account id are stored with the agent. |
| `Provider.RequestConnect` | src/Provider/index.ts:161-185 | One `requestConnect` goes out, with whitelist default `[]` and timeout default 120000. An agent follows for that whitelist and host, and the connect reply is returned. The stored principal and account id are those of the returned public key's self-authenticating principal. On failure the provider is unchanged. |
| `Provider.ConnectThenGetPrincipal` | src/Provider/index.ts:112-185 | After a successful `requestConnect`, `getPrincipal` makes no dispatch and answers with the new agent's principal text. |
| `Provider.CreateActor` | src/Provider/index.ts:94-109 | The service's argument types are recorded. An agent for that canister is created only when none exists. |
| `Provider.DeleteAgent` | src/Provider/index.ts:89-92 | The agent is dropped and nothing else changes. |
| `Provider.GetManagementCanister` | src/Provider/index.ts:334-337 | Without an agent, the call is refused with "Oops! Agent initialization required.". |
| `Provider.DeletedAgentRequired` | src/Provider/index.ts:334-337 | After `deleteAgent()`, the management canister needs a new agent. |
| `Provider.CanisterList` | src/Provider/index.ts:239-241 | The whitelist is every transaction's canister id, in order and not deduplicated. |
| `Provider.BatchSignInfo` | src/Provider/index.ts:254-256 | Each approval entry has these fields:<br>- request type "unknown", and not pre-approved;<br>- the agent's principal as sender;<br>- the transaction's canister id and method name;<br>- the encoded arguments `getSignInfoFromTransaction` gives;<br>- as decoded arguments, `recursiveParseBigint` of an argument array, and none for a builder. |
| `Provider.BatchTransactions` | src/Provider/index.ts:234-319 | The flow runs in this order:<br>- `verifyWhitelist` for the canister list is sent first;<br>- the loop runs exactly when the approval is truthy;<br>- an approval that is not truthy returns false;<br>- after acceptance the result is true exactly when the last transaction did not abort;<br>- a failure after acceptance is always a thrown-callback error. |
| `Provider.BatchAgentAdmitsBatch` | src/Provider/index.ts:239-250 | The batch agent admits a call to any of the batch's canisters, and pre-approves. |
| `Provider.BatchSignInfoInOrder` | src/Provider/index.ts:252-265 | The approval carries one sign info per transaction, in order, none pre-approved. |
| `Provider.BatchHaltsOnFirstFailure` | src/Provider/index.ts:267-318 | After acceptance, the loop runs until the first transaction that does not complete:<br>- every earlier one completed on the chain it saw;<br>- stopping early means that one failed;<br>- no later transaction produced events.<br>`batchTransactions` returns true exactly when the last started transaction's `onFail` did not throw. Otherwise it fails with a thrown-callback error. |

## Left out

- Foreign libraries are parameters of the model, not implementations:
  - SHA-256 (js-sha256), Candid encode and decode, and secp256k1 DER;
  - `Principal` construction and text form, and the account id (src/utils/account.ts);
  - base64 (src/utils/communication.ts) and `recursiveParseBigint` (src/utils/bigint.ts).
  
  The base64 round trip is a precondition of the lemmas that need it. Nothing is assumed of the
  rest.
- Floating point is not modelled. Numbers are integers, and `recursiveParseBigint`'s
  floating-point conversion is the opaque `parseBigint`.
- The hex helper `fromHexToUint8Array` is the foreign parameter `hexToBytes`. The helpers
  `fromArrayBufferToHex` and `fromHexToArrayBuffer` are not part of this model. `sign` hands the
  callback a hex string, while `signFactory` treats its payload as bytes. The model passes the
  payload and the signature as bytes throughout.
- `Provider.GetPrincipal`: of the texts `Principal.from` rejects, only the empty answer fails.
  Any other non-empty answer is taken to be valid principal text, because the model has no
  principal parser.
- `Identity.PrincipalField`: text is forwarded as given. `Principal.from(text)` throws on text that
  is not a valid principal. That error path is dropped, and the text is taken to print as itself.
- JavaScript strings are UTF-16, and a Dafny `string` cannot hold a lone surrogate, which
  `TextEncoder` writes as the bytes EF BF BD. Hashes of such strings are not modelled.
- src/utils/domain-metadata is not part of this model. The page metadata is a parameter.
- The value an error handler's dispatch resolves to is not known to the bridge. The model takes
  it to be `undefined`, so a caller that reads fields of it fails (`NoReply`, `NoSignature`,
  `NoPublicKey`). A rejection of the error-handler dispatch itself is not modelled.
- The provider passes its `BrowserRPC` to `createAgent`, which calls it with the RPC manager's
  `{handler, args}` form. The model routes that call like the RPC manager's `call`.
- Promise scheduling, timeouts and concurrency are not modelled. Every `await` is one sequential
  step, and transport replies are inputs.
- The HTTP agent's own behaviour is outside the model: `fetchRootKey` is a flag, and
  `Actor.createActor` does not appear. The actor method a batch transaction awaits is an input
  (`Transaction.invoke`), so the transport traffic of those calls is not in the batch's trace.
- `KeySort.Sort`: the sort is not proved stable. Request ids only depend on it under distinct
  hashed keys, where the sorted order is unique (`KeySort.SortedUnique`).
- `Identity.SignInfoOf`: sign-info fields that are neither strings nor buffers become `None`.
- `Provider.BatchSignInfo`: `recursiveParseBigint` is applied to the decoded arguments only. The
  conversion of the encoded-arguments buffer into a plain object is not modelled.
- Provider methods that only forward one call to the signer are left out: `requestBalance`,
  `requestTransfer`, `requestBurnXTC`, `isConnected`, `disconnect` and `createAgent`. They add
  nothing beyond `Rpc.ClientCall` and `Agent.CreateAgent`.
- `init` (src/Provider/index.ts:38-58) is not modelled as one operation. It sends `isConnected`
  (`Rpc.ClientCall`). When connected, it creates an agent with whitelist `[]`
  (`Agent.CreateAgent`), then stores the agent's principal and account id (`Provider.AdoptAgent`).
- The `!prevTransactionsData` branch of the batch loop cannot run, because the chain is always
  an array. It is not modelled.
- `SessionManager.updating` starts false and no method sets it. The model keeps it as state so
  that the updating branch of `getConnectionData` is modelled.
- The session replaces its whitelist wholesale in both `requestConnect` and
  `getConnectionData`. It never merges a new whitelist into the old one.
- src/Provider.ts (the older provider), src/utils/wallet-connect-rpc.ts,
  src/utils/signer-server.ts and src/utils/ic-management-api.ts are not part of this model.

=== FILE: agent.dfy ===
/**
 * src/utils/agent.ts: the `PlugAgent` (an HTTP agent whose `call`, `query` and `readState` go
 * through the transport), its construction defaults, the root-key decision, and the signing
 * path from the agent's identity through `signFactory` to the signer.
 */
module Agent {
  import opened Wrappers
  import opened Bytes
  import opened JsValue
  import opened Foreign
  import opened Protocol
  import Rpc
  import Identity
  import Sign
  import RequestId

  /** `PLUG_PROXY_HOST`. */
  const PlugProxyHost: string := "https://mainnet.plugwallet.ooo/"

  /** `IC_MAINNET_URLS`. */
  const IcMainnetUrls: seq<string> := ["https://mainnet.dfinity.network", "ic0.app", PlugProxyHost]

  /** `DEFAULT_HOST = IC_MAINNET_URLS[0]`. */
  const DefaultHost: string := IcMainnetUrls[0]

  /** The agent methods; `PlugAgent` overrides three of them. */
  datatype AgentMethod = Call | Query | ReadState | Status | FetchRootKey | GetPrincipal

  /** Where an agent method is served: by the transport proxies, or by the inherited HTTP agent. */
  datatype Backend = TransportProxy | HttpAgent

  /** `new PlugAgent(options, clientRPC)`: the sign callback's settings sit in the identity's owner. */
  datatype PlugAgent = PlugAgent(
    identity: Identity.PlugIdentity,
    host: string,
    idls: Sign.ArgsTypesOfCanister,
    preApprove: bool,
    /** Whether `fetchRootKey()` ran while the agent was created. */
    rootKeyFetched: bool)

  /** Which backend serves each method of a `PlugAgent`. */
  function BackendOf(m: AgentMethod): (b: Backend)
    ensures b == TransportProxy <==> m in {Call, Query, ReadState}
  {
    match m
    case Call => TransportProxy
    case Query => TransportProxy
    case ReadState => TransportProxy
    case _ => HttpAgent
  }

  /**
   * `privateCreateAgent({publicKey, clientRPC, idls, preApprove = false, whitelist = [],
   * host = DEFAULT_HOST})`; an absent argument is `None`.
   */
  function PrivateCreateAgent(lib: Library, publicKey: string, idls: Sign.ArgsTypesOfCanister,
                              preApprove: Option<bool>, whitelist: Option<seq<string>>, host: Option<string>)
    : (a: PlugAgent)
    ensures a.identity == Identity.NewIdentity(lib, publicKey, Some(whitelist.GetOr([])))
    ensures a.host == host.GetOr(DefaultHost) && a.idls == idls && a.preApprove == preApprove.GetOr(false)
    ensures a.rootKeyFetched <==> host.GetOr(DefaultHost) !in IcMainnetUrls
  {
    var h := host.GetOr(DefaultHost);
    PlugAgent(Identity.NewIdentity(lib, publicKey, Some(whitelist.GetOr([]))), h, idls, preApprove.GetOr(false),
              h !in IcMainnetUrls)
  }

  /** With no host given, the agent talks to the main network and does not fetch a root key. */
  lemma DefaultsUseMainnet(lib: Library, publicKey: string, idls: Sign.ArgsTypesOfCanister)
    ensures var a := PrivateCreateAgent(lib, publicKey, idls, None, None, None);
      a.host == "https://mainnet.dfinity.network" && !a.rootKeyFetched && a.identity.whitelist == [] && !a.preApprove
  {
  }

  /** A local replica fetches its root key; the proxy host does not. */
  lemma RootKeyExamples(lib: Library, publicKey: string, idls: Sign.ArgsTypesOfCanister)
    ensures PrivateCreateAgent(lib, publicKey, idls, None, None, Some("http://localhost:8000")).rootKeyFetched
    ensures !PrivateCreateAgent(lib, publicKey, idls, None, None, Some(PlugProxyHost)).rootKeyFetched
  {
    assert "http://localhost:8000" != IcMainnetUrls[0] && "http://localhost:8000" != IcMainnetUrls[1]
      && "http://localhost:8000" != IcMainnetUrls[2];
  }

  datatype AgentError =
    /** `verifyWhitelist` was answered by an error handler, so there is no public key. */
    | NoPublicKey

  /**
   * `createAgent(clientRPC, metadata, {whitelist = [], host = DEFAULT_HOST}, idls, preApprove = false)`:
   * one `verifyWhitelist` call with the same whitelist, then an agent over the key it returns.
   */
  function CreateAgent(lib: Library, metadata: Metadata, whitelist: Option<seq<string>>, host: Option<string>,
                       idls: Sign.ArgsTypesOfCanister, preApprove: Option<bool>, reply: Rpc.Reply<string>)
    : (r: (seq<Dispatch>, Result<PlugAgent, AgentError>))
    ensures |r.0| >= 1 && r.0[0] == Dispatch(VerifyWhitelist(metadata, whitelist.GetOr([])), DefaultConfig)
    ensures r.1.Success? <==> reply.Resolved?
    ensures r.1.Success? ==>
      && r.1.value.identity.rawKey == lib.hexToBytes(reply.value)
      && r.1.value.identity.whitelist == whitelist.GetOr([])
      && r.1.value.identity.principal.None?
      && r.1.value.host == host.GetOr(DefaultHost)
      && r.1.value.preApprove == preApprove.GetOr(false)
      && r.1.value.idls == idls
  {
    var wl := whitelist.GetOr([]);
    var (trace, answer) := Rpc.Call(metadata, VerifyWhitelist(metadata, wl), None, reply);
    match answer
    case Routed(_, _) => (trace, Failure(NoPublicKey))
    case Answered(publicKey) =>
      (trace, Success(PrivateCreateAgent(lib, publicKey, idls, preApprove, Some(wl), host)))
  }

  /** What signing a request through the agent did: the transport dispatches and the transformed request. */
  datatype SignedThrough = SignedThrough(trace: seq<Dispatch>, transformed: Identity.Transformed)

  /**
   * `transformRequest(request)` of the agent's identity, whose sign callback is
   * `signFactory(clientRPC, idls, preApprove)`; `reply` is the signer's answer to `requestSign`.
   */
  function SignThroughAgent(lib: Library, agent: PlugAgent, metadata: Metadata, request: Identity.HttpAgentRequest,
                            reply: Rpc.Reply<Bytes>)
    : (r: SignedThrough)
    ensures Identity.Gate(lib, agent.identity.whitelist, request.body).Failure? ==> r.trace == []
    ensures r.trace != [] <==>
      && Identity.Gate(lib, agent.identity.whitelist, request.body).Success?
      && RequestId.RequestIdOf(lib.sha256, request.body).Success?
      && Identity.SignInfoOf(lib, request.body).Success?
    ensures r.trace != [] ==>
      && |r.transformed.signCalls| == 1
      && r.trace[0].request == RequestSign(r.transformed.signCalls[0].payload,
           Sign.PreparedSignInfo(lib, agent.idls, agent.preApprove, Some(r.transformed.signCalls[0].info)))
    ensures r.transformed.result.Success? <==>
      r.trace != [] && reply.Resolved?
    ensures r.transformed.result.Success? ==> r.transformed.result.value.body.senderSig == reply.value
  {
    var probe := Identity.TransformRequest(lib, agent.identity, request, None);
    if probe.signCalls == [] then SignedThrough([], probe)
    else
      var call := probe.signCalls[0];
      var (trace, signature) := Sign.SignFactory(lib, agent.idls, Some(agent.preApprove), metadata,
                                                 call.payload, Some(call.info), reply);
      var sig := if signature.Success? then Some(signature.value) else None;
      SignedThrough(trace, Identity.TransformRequest(lib, agent.identity, request, sig))
  }

  /**
   * An agent created for a whitelist sends the signer nothing for a non-`read_state` request
   * to a canister outside it, and signs with the `preApprove` it was created with otherwise.
   */
  lemma AgentGateBeforeSign(lib: Library, metadata: Metadata, whitelist: seq<string>, host: Option<string>,
                            idls: Sign.ArgsTypesOfCanister, preApprove: Option<bool>, key: string,
                            request: Identity.HttpAgentRequest, reply: Rpc.Reply<Bytes>)
    requires !Identity.IsReadState(request.body)
    requires Identity.CanisterOf(request.body).Some?
    ensures var agent := CreateAgent(lib, metadata, Some(whitelist), host, idls, preApprove, Rpc.Resolved(key)).1.value;
      var signed := SignThroughAgent(lib, agent, metadata, request, reply);
      && (lib.principalText(Identity.CanisterOf(request.body).value) !in whitelist ==> signed.trace == [])
      && (signed.trace != [] ==> signed.trace[0].request.info.preApprove == Some(preApprove.GetOr(false)))
  {
  }
}

=== FILE: agent_proxy.dfy ===
/**
 * The transport-backed replacements for an agent's `call`, `query` and `readState`: the
 * batch-aware factories of src/utils/factories/agent.ts and the ones `PlugAgent` installs in
 * src/utils/agent.ts.  Each sends one request through the RPC manager, throws the message of
 * an error envelope, and base64-decodes the binary fields of the reply.
 */
module AgentProxy {
  import opened Wrappers
  import opened Bytes
  import opened JsValue
  import opened Foreign
  import opened Protocol
  import Rpc

  /** A canister id as the agent passes it: text, or a principal given by its raw bytes. */
  datatype CanisterRef = TextRef(text: string) | PrincipalRef(raw: Bytes)

  /** `canisterId.toString()` (`typeof canisterId === "string" ? canisterId : canisterId.toString()`). */
  function CanisterText(lib: Library, c: CanisterRef): string {
    match c
    case TextRef(t) => t
    case PrincipalRef(raw) => lib.principalText(raw)
  }

  /** The `error` field of a reply, when it is set: the value thrown is its `message`. */
  datatype ErrorEnvelope = ErrorEnvelope(message: Option<string>)

  datatype ProxyError =
    /** `throw result.error.message`. */
    | Thrown(message: Option<string>)
    /** The call was answered by an error handler, so there is no reply object to read. */
    | NoReply
    /** `idl[methodName]` is missing, so decoding the typed arguments throws. */
    | UnknownMethod(methodName: string)
    /** A `replied` query without a `reply` field. */
    | MissingReply
    /** `fields.paths[0]` is missing. */
    | NoPaths

  /** The signer's answer to `requestCall`. */
  datatype CallReply = CallReply(error: Option<ErrorEnvelope>, requestId: string, rest: seq<(string, JsValue)>)

  /** The `SubmitResponse` handed back: the other fields unchanged, the request id as bytes. */
  datatype SubmitResponse = SubmitResponse(requestId: Bytes, rest: seq<(string, JsValue)>)

  /** `options` of an agent `call`. */
  datatype CallOptions = CallOptions(methodName: string, arg: Bytes, effectiveCanisterId: Option<CanisterRef>)

  /** The outcome of a proxy: the transport dispatches it made and what it returned or threw. */
  datatype Proxied<T> = Proxied(trace: seq<Dispatch>, result: Result<T, ProxyError>)

  /** The interpretation shared by both call proxies: error envelope first, then the request id. */
  function SubmitResult(lib: Library, answer: Rpc.Answer<CallReply>): (r: Result<SubmitResponse, ProxyError>)
    ensures answer.Answered? && answer.value.error.None? ==>
      r == Success(SubmitResponse(lib.base64Decode(answer.value.requestId), answer.value.rest))
    ensures answer.Answered? && answer.value.error.Some? ==> r == Failure(Thrown(answer.value.error.value.message))
    ensures answer.Routed? ==> r == Failure(NoReply)
  {
    match answer
    case Routed(_, _) => Failure(NoReply)
    case Answered(reply) =>
      if reply.error.Some? then Failure(Thrown(reply.error.value.message))
      else Success(SubmitResponse(lib.base64Decode(reply.requestId), reply.rest))
  }

  /** The envelope both call proxies send. */
  function Envelope(lib: Library, canisterId: CanisterRef, options: CallOptions): CallEnvelope {
    CallEnvelope(CanisterText(lib, canisterId), options.methodName, lib.base64Encode(options.arg),
                 if options.effectiveCanisterId.Some? then Some(CanisterText(lib, options.effectiveCanisterId.value)) else None)
  }

  /**
   * `callMethodFactory(clientRPC, batchTxId = "", idl)` of src/utils/factories/agent.ts,
   * applied to `(canisterId, options)`.
   */
  function FactoryCall(lib: Library, batchTxId: Option<string>, idl: Option<map<string, ArgTypes>>,
                       metadata: Metadata, canisterId: CanisterRef, options: CallOptions, reply: Rpc.Reply<CallReply>)
    : (p: Proxied<SubmitResponse>)
    ensures idl.Some? && options.methodName !in idl.value <==> p.trace == []
    ensures p.trace == [] ==> p.result == Failure(UnknownMethod(options.methodName))
    ensures p.trace != [] ==>
      && p.trace[0] == Dispatch(RequestCall(metadata, Envelope(lib, canisterId, options),
           Some(BatchTag(batchTxId.GetOr(""),
             if idl.Some? then Some(lib.parseBigint(lib.idlDecode(idl.value[options.methodName], options.arg))) else None))),
           DefaultConfig)
      && p.result == SubmitResult(lib, Rpc.Call(metadata, p.trace[0].request, None, reply).1)
  {
    if idl.Some? && options.methodName !in idl.value then Proxied([], Failure(UnknownMethod(options.methodName)))
    else
      var decodedArgs :=
        if idl.Some? then Some(lib.parseBigint(lib.idlDecode(idl.value[options.methodName], options.arg))) else None;
      var request := RequestCall(metadata, Envelope(lib, canisterId, options), Some(BatchTag(batchTxId.GetOr(""), decodedArgs)));
      var (trace, answer) := Rpc.Call(metadata, request, None, reply);
      Proxied(trace, SubmitResult(lib, answer))
  }

  /** `callMethodFactory(clientRPC)` of src/utils/agent.ts, applied to `(canisterId, options)`. */
  function AgentCall(lib: Library, metadata: Metadata, canisterId: CanisterRef, options: CallOptions, reply: Rpc.Reply<CallReply>)
    : (p: Proxied<SubmitResponse>)
    ensures p.trace != [] && p.trace[0] == Dispatch(RequestCall(metadata, Envelope(lib, canisterId, options), None), DefaultConfig)
    ensures p.result == SubmitResult(lib, Rpc.Call(metadata, p.trace[0].request, None, reply).1)
  {
    var request := RequestCall(metadata, Envelope(lib, canisterId, options), None);
    var (trace, answer) := Rpc.Call(metadata, request, None, reply);
    Proxied(trace, SubmitResult(lib, answer))
  }

  /**
   * The two call proxies agree on everything but the batch tag: the agent's sends no
   * `batchTxId` or decoded arguments, and never fails before dispatching.
   */
  lemma CallProxiesAgree(lib: Library, metadata: Metadata, canisterId: CanisterRef, options: CallOptions, reply: Rpc.Reply<CallReply>)
    ensures var f := FactoryCall(lib, None, None, metadata, canisterId, options, reply);
      var a := AgentCall(lib, metadata, canisterId, options, reply);
      && f.result == a.result && |f.trace| == |a.trace|
      && f.trace[0].request == a.trace[0].request.(batch := Some(BatchTag("", None)))
  {
  }

  /**
   * The transport sees the same first two arguments from both call proxies, metadata and
   * envelope; the batch-aware one adds `batchTxId` (default "") and the decoded arguments.
   */
  lemma CallArgsShared(lib: Library, batchTxId: Option<string>, metadata: Metadata, canisterId: CanisterRef,
                       options: CallOptions, reply: Rpc.Reply<CallReply>)
    ensures var f := FactoryCall(lib, batchTxId, None, metadata, canisterId, options, reply);
      var a := AgentCall(lib, metadata, canisterId, options, reply);
      var fa := Args(f.trace[0].request);
      && fa[..2] == Args(a.trace[0].request)
      && fa[2..] == [Str(batchTxId.GetOr("")), Undefined]
  {
  }

  /** A call whose reply carries no error returns the request id the signer sent, as bytes. */
  lemma CallRequestIdRoundTrip(lib: Library, metadata: Metadata, canisterId: CanisterRef, options: CallOptions,
                               id: Bytes, rest: seq<(string, JsValue)>)
    requires Base64RoundTrip(lib)
    ensures AgentCall(lib, metadata, canisterId, options,
                      Rpc.Resolved(CallReply(None, lib.base64Encode(id), rest))).result == Success(SubmitResponse(id, rest))
  {
  }

  /** The argument bytes the signer receives decode back to the call's `arg`. */
  lemma CallArgRoundTrip(lib: Library, canisterId: CanisterRef, options: CallOptions)
    requires Base64RoundTrip(lib)
    ensures lib.base64Decode(Envelope(lib, canisterId, options).arg) == options.arg
  {
  }

  /** The reply's `reply` field: its base64 `arg`. */
  datatype QueryReply = QueryReply(error: Option<ErrorEnvelope>, status: string, reply: Option<string>, rest: seq<(string, JsValue)>)

  /** A `QueryResponse`: for a `replied` query the decoded reply, otherwise the reply as sent. */
  datatype ReplyArg = DecodedArg(arg: Bytes) | RawArg(reply: Option<string>)

  datatype QueryResponse = QueryResponse(status: string, reply: ReplyArg, rest: seq<(string, JsValue)>)

  /** `QueryResponseStatus.Replied`. */
  const Replied: string := "replied"

  /** `queryMethodFactory(clientRPC)(canisterId, {methodName, arg})`; both source files agree. */
  function Query(lib: Library, metadata: Metadata, canisterId: CanisterRef, methodName: string, arg: Bytes,
                 reply: Rpc.Reply<QueryReply>)
    : (p: Proxied<QueryResponse>)
    ensures p.trace != [] && p.trace[0] == Dispatch(RequestQuery(CanisterText(lib, canisterId), methodName, lib.base64Encode(arg)), DefaultConfig)
    ensures p.result.Success? <==>
      reply.Resolved? && reply.value.error.None? && (reply.value.status == Replied ==> reply.value.reply.Some?)
    ensures reply.Resolved? && reply.value.error.Some? ==> p.result == Failure(Thrown(reply.value.error.value.message))
    ensures p.result.Success? ==>
      && p.result.value.status == reply.value.status && p.result.value.rest == reply.value.rest
      && p.result.value.reply == (if reply.value.status == Replied then DecodedArg(lib.base64Decode(reply.value.reply.value))
                                  else RawArg(reply.value.reply))
  {
    var request := RequestQuery(CanisterText(lib, canisterId), methodName, lib.base64Encode(arg));
    var (trace, answer) := Rpc.Call(metadata, request, None, reply);
    match answer
    case Routed(_, _) => Proxied(trace, Failure(NoReply))
    case Answered(r) =>
      if r.error.Some? then Proxied(trace, Failure(Thrown(r.error.value.message)))
      else if r.status == Replied then
        (match r.reply
         case None => Proxied(trace, Failure(MissingReply))
         case Some(a) => Proxied(trace, Success(QueryResponse(r.status, DecodedArg(lib.base64Decode(a)), r.rest))))
      else Proxied(trace, Success(QueryResponse(r.status, RawArg(r.reply), r.rest)))
  }

  /** A replied query returns the reply bytes the canister produced. */
  lemma QueryReplyRoundTrip(lib: Library, metadata: Metadata, canisterId: CanisterRef, methodName: string, arg: Bytes,
                            result: Bytes, rest: seq<(string, JsValue)>)
    requires Base64RoundTrip(lib)
    ensures Query(lib, metadata, canisterId, methodName, arg,
                  Rpc.Resolved(QueryReply(None, Replied, Some(lib.base64Encode(result)), rest))).result
            == Success(QueryResponse(Replied, DecodedArg(result), rest))
  {
  }

  datatype ReadStateReply = ReadStateReply(error: Option<ErrorEnvelope>, certificate: string)

  /** `ReadStateResponse`: only the certificate. */
  datatype ReadStateResponse = ReadStateResponse(certificate: Bytes)

  /**
   * `readStateMethodFactory(clientRPC)(canisterId, {paths})`; both source files agree.  Only
   * the first path group is sent.
   */
  function ReadState(lib: Library, metadata: Metadata, canisterId: CanisterRef, paths: seq<seq<Bytes>>,
                     reply: Rpc.Reply<ReadStateReply>)
    : (p: Proxied<ReadStateResponse>)
    ensures paths == [] <==> p.trace == []
    ensures paths == [] ==> p.result == Failure(NoPaths)
    ensures paths != [] ==>
      && p.trace[0] == Dispatch(RequestReadState(CanisterText(lib, canisterId),
           seq(|paths[0]|, i requires 0 <= i < |paths[0]| => lib.base64Encode(paths[0][i]))), DefaultConfig)
      && (p.result.Success? <==> reply.Resolved? && reply.value.error.None?)
      && (p.result.Success? ==> p.result.value == ReadStateResponse(lib.base64Decode(reply.value.certificate)))
      && (reply.Resolved? && reply.value.error.Some? ==> p.result == Failure(Thrown(reply.value.error.value.message)))
  {
    if paths == [] then Proxied([], Failure(NoPaths))
    else
      var encoded := seq(|paths[0]|, i requires 0 <= i < |paths[0]| => lib.base64Encode(paths[0][i]));
      var request := RequestReadState(CanisterText(lib, canisterId), encoded);
      var (trace, answer) := Rpc.Call(metadata, request, None, reply);
      match answer
      case Routed(_, _) => Proxied(trace, Failure(NoReply))
      case Answered(r) =>
        if r.error.Some? then Proxied(trace, Failure(Thrown(r.error.value.message)))
        else Proxied(trace, Success(ReadStateResponse(lib.base64Decode(r.certificate))))
  }

  /** The paths the signer receives decode back to the first path group, in order. */
  lemma ReadStatePathsRoundTrip(lib: Library, metadata: Metadata, canisterId: CanisterRef, paths: seq<seq<Bytes>>,
                                reply: Rpc.Reply<ReadStateReply>)
    requires Base64RoundTrip(lib)
    requires paths != []
    ensures var sent := ReadState(lib, metadata, canisterId, paths, reply).trace[0].request.paths;
      |sent| == |paths[0]| && forall i :: 0 <= i < |sent| ==> lib.base64Decode(sent[i]) == paths[0][i]
  {
  }
}

=== FILE: batch.dfy ===
/**
 * The loop of `batchTransactions` in src/Provider/index.ts, once the batch has been accepted:
 * the transactions run strictly in order, each successful `onSuccess` result may be chained to
 * the later ones, and the first failure stops the batch.
 */
module Batch {
  import opened Wrappers
  import opened JsValue
  import opened Transactions

  const InvalidArgsMessage: string := "Invalid transaction arguments, must be function or array"

  /** The callbacks the loop invokes, in the order it invokes them. */
  datatype Event =
    | ArgsRequested(index: nat, prev: seq<PrevResponse>)
    | Invoked(index: nat, args: seq<JsValue>)
    | SuccessHandled(index: nat, response: JsValue)
    | FailHandled(index: nat, error: JsValue, prev: seq<PrevResponse>)

  /** How one transaction ended: go on with the chain, `break`, or a rejection of the whole batch. */
  datatype StepEnd = Continue(chain: seq<PrevResponse>) | Halt | Abort(error: JsValue)

  datatype StepRun = StepRun(events: seq<Event>, end: StepEnd)

  /** Every event of the run belongs to transaction `index`, and those that see the chain see `prev`. */
  ghost predicate EventsOf(events: seq<Event>, index: nat, prev: seq<PrevResponse>) {
    forall k :: 0 <= k < |events| ==>
      events[k].index == index && (events[k].ArgsRequested? || events[k].FailHandled? ==> events[k].prev == prev)
  }

  /*
   * How a transaction ends, told by where its error goes rather than by the callbacks'
   * events: the error thrown in the `try` block reaches the `catch` block, whose `onFail`
   * may throw again and so reject the whole batch.
   */

  /** The error `onSuccess` throws on `response`, if it is defined and throws. */
  function SuccessError(tx: Transaction, response: JsValue): Option<JsValue> {
    match tx.onSuccess
    case None => None
    case Some(onSuccess) => (match onSuccess(response) case Threw(e) => Some(e) case Normal(_) => None)
  }

  /** The error the `try` block throws once the method is called with `args`, if any. */
  function CallError(tx: Transaction, args: seq<JsValue>): Option<JsValue> {
    match tx.invoke(args)
    case Threw(e) => Some(e)
    case Normal(response) => SuccessError(tx, response)
  }

  /**
   * The error the `catch` block receives: one thrown by the argument builder, the method or
   * `onSuccess`, or by the `onFail` call on invalid arguments.  `None` when the `try` block
   * throws nothing, and for invalid arguments without an `onFail`, whose `TypeError` meets no
   * handler.
   */
  function CaughtError(tx: Transaction, prev: seq<PrevResponse>): Option<JsValue> {
    match tx.args
    case ArgsFn(build) => (match build(prev) case Threw(e) => Some(e) case Normal(args) => CallError(tx, args))
    case ArgsList(items) => CallError(tx, items)
    case ArgsOther(_) =>
      match tx.onFail
      case None => None
      case Some(onFail) => (match onFail(Str(InvalidArgsMessage), prev) case Threw(e) => Some(e) case Normal(_) => None)
  }

  /** The transaction ran its `try` block to the end: valid arguments and nothing threw. */
  predicate Completes(tx: Transaction, prev: seq<PrevResponse>) {
    !tx.args.ArgsOther? && CaughtError(tx, prev).None?
  }

  /** The `onFail` of the `catch` block threw, which rejects `batchTransactions` itself. */
  predicate Rejects(tx: Transaction, prev: seq<PrevResponse>) {
    && tx.onFail.Some? && CaughtError(tx, prev).Some?
    && tx.onFail.value(CaughtError(tx, prev).value, prev).Threw?
  }

  /** The arguments the method is called with, when they can be had. */
  function ArgsOf(tx: Transaction, prev: seq<PrevResponse>): Option<seq<JsValue>> {
    match tx.args
    case ArgsFn(build) => (match build(prev) case Normal(args) => Some(args) case Threw(_) => None)
    case ArgsList(items) => Some(items)
    case ArgsOther(_) => None
  }

  /** The chain after transaction `index`: extended by a truthy `onSuccess` result, otherwise `prev`. */
  function ChainAfter(tx: Transaction, index: nat, prev: seq<PrevResponse>): seq<PrevResponse> {
    match ArgsOf(tx, prev)
    case None => prev
    case Some(args) =>
      match tx.invoke(args)
      case Threw(_) => prev
      case Normal(response) =>
        match tx.onSuccess
        case None => prev
        case Some(onSuccess) => (match onSuccess(response) case Normal(chained) => Chained(prev, index, chained) case Threw(_) => prev)
  }

  /** The `catch (error)` block: `onFail(error, prev)` when it is defined, then `break`. */
  function Catch(tx: Transaction, index: nat, prev: seq<PrevResponse>, error: JsValue): (r: StepRun)
    ensures !r.end.Continue?
    ensures tx.onFail.None? <==> r == StepRun([], Halt)
    ensures tx.onFail.Some? ==> r.events == [FailHandled(index, error, prev)]
    ensures r.end.Abort? ==> tx.onFail.Some? && tx.onFail.value(error, prev) == Threw(r.end.error)
    ensures tx.onFail.Some? ==> (r.end.Abort? <==> tx.onFail.value(error, prev).Threw?)
  {
    match tx.onFail
    case None => StepRun([], Halt)
    case Some(onFail) =>
      match onFail(error, prev)
      case Normal(_) => StepRun([FailHandled(index, error, prev)], Halt)
      case Threw(e) => StepRun([FailHandled(index, error, prev)], Abort(e))
  }

  /** `chain` is `prev`, or `prev` with one truthy entry for transaction `index` appended. */
  ghost predicate Extends(prev: seq<PrevResponse>, chain: seq<PrevResponse>, index: nat) {
    chain == prev ||
    (&& |chain| == |prev| + 1 && chain[..|prev|] == prev
     && chain[|prev|].transactionIndex == index && Truthy(chain[|prev|].response))
  }

  /** The chain after a transaction's `onSuccess` returned `chained`: extended only by a truthy value. */
  function Chained(prev: seq<PrevResponse>, index: nat, chained: JsValue): (r: seq<PrevResponse>)
    ensures Truthy(chained) ==> r == prev + [PrevResponse(index, chained)]
    ensures !Truthy(chained) ==> r == prev
  {
    if Truthy(chained) then prev + [PrevResponse(index, chained)] else prev
  }

  /** The rest of the `try` block after the method resolved with `response`. */
  function AfterResponse(tx: Transaction, index: nat, prev: seq<PrevResponse>, response: JsValue): (r: StepRun)
    ensures EventsOf(r.events, index, prev)
    ensures r.end.Continue? ==> Extends(prev, r.end.chain, index)
    ensures tx.onSuccess.None? ==> r == StepRun([], Continue(prev))
    ensures tx.onSuccess.Some? ==> |r.events| > 0 && r.events[0] == SuccessHandled(index, response)
    ensures r.end.Continue? <==> SuccessError(tx, response).None?
    ensures tx.onSuccess.Some? && tx.onSuccess.value(response).Normal? ==>
      r.end == Continue(Chained(prev, index, tx.onSuccess.value(response).value))
    ensures SuccessError(tx, response).Some? ==> Catch(tx, index, prev, SuccessError(tx, response).value).end == r.end
    ensures SuccessError(tx, response).Some? && tx.onFail.Some? ==>
      r.events[|r.events| - 1] == FailHandled(index, SuccessError(tx, response).value, prev)
  {
    match tx.onSuccess
    case None => StepRun([], Continue(prev))
    case Some(onSuccess) =>
      match onSuccess(response)
      case Threw(e) =>
        var c := Catch(tx, index, prev, e);
        StepRun([SuccessHandled(index, response)] + c.events, c.end)
      case Normal(chained) => StepRun([SuccessHandled(index, response)], Continue(Chained(prev, index, chained)))
  }

  function Last<T>(s: seq<T>): T
    requires |s| > 0
  {
    s[|s| - 1]
  }

  /** Awaiting the method on `args`, then the rest of the `try` block. */
  function Invoke(tx: Transaction, index: nat, prev: seq<PrevResponse>, args: seq<JsValue>): (r: StepRun)
    ensures EventsOf(r.events, index, prev)
    ensures |r.events| > 0 && r.events[0] == Invoked(index, args)
    ensures r.end.Continue? ==> Extends(prev, r.end.chain, index)
    ensures r.end.Continue? <==> CallError(tx, args).None?
    ensures CallError(tx, args).Some? ==> r.end == Catch(tx, index, prev, CallError(tx, args).value).end
    ensures CallError(tx, args).Some? && tx.onFail.Some? ==>
      r.events[|r.events| - 1] == FailHandled(index, CallError(tx, args).value, prev)
    ensures tx.invoke(args).Normal? && tx.onSuccess.None? ==> r.end == Continue(prev)
    ensures tx.invoke(args).Normal? && tx.onSuccess.Some? && tx.onSuccess.value(tx.invoke(args).value).Normal? ==>
      r.end == Continue(Chained(prev, index, tx.onSuccess.value(tx.invoke(args).value).value))
  {
    match tx.invoke(args)
    case Threw(e) =>
      var c := Catch(tx, index, prev, e);
      StepRun([Invoked(index, args)] + c.events, c.end)
    case Normal(response) =>
      var a := AfterResponse(tx, index, prev, response);
      StepRun([Invoked(index, args)] + a.events, a.end)
  }

  /** One iteration of the loop, for the transaction at position `index`. */
  function Step(tx: Transaction, index: nat, prev: seq<PrevResponse>): (r: StepRun)
    ensures EventsOf(r.events, index, prev)
    ensures r.end.Continue? ==> Extends(prev, r.end.chain, index)
    ensures tx.args.ArgsFn? ==> |r.events| > 0 && r.events[0] == ArgsRequested(index, prev)
    ensures tx.args.ArgsList? ==> |r.events| > 0 && r.events[0] == Invoked(index, tx.args.items)
    ensures tx.args.ArgsOther? ==> !r.end.Continue?
    ensures tx.args.ArgsOther? && tx.onFail.Some? ==> |r.events| > 0 && r.events[0] == FailHandled(index, Str(InvalidArgsMessage), prev)
    ensures r.end.Continue? <==> Completes(tx, prev)
    ensures r.end.Continue? ==> r.end.chain == ChainAfter(tx, index, prev)
    ensures r.end.Abort? <==> Rejects(tx, prev)
    ensures CaughtError(tx, prev).Some? && tx.onFail.Some? ==>
      |r.events| > 0 && r.events[|r.events| - 1] == FailHandled(index, CaughtError(tx, prev).value, prev)
  {
    match tx.args
    case ArgsFn(build) =>
      (match build(prev)
       case Threw(e) =>
         var c := Catch(tx, index, prev, e);
         StepRun([ArgsRequested(index, prev)] + c.events, c.end)
       case Normal(args) =>
         var i := Invoke(tx, index, prev, args);
         StepRun([ArgsRequested(index, prev)] + i.events, i.end))
    case ArgsList(items) => Invoke(tx, index, prev, items)
    case ArgsOther(_) =>
      match tx.onFail
      // `transaction?.onFail(...)` on an absent `onFail` throws, and the catch block has no `onFail` to call.
      case None => StepRun([], Halt)
      case Some(onFail) =>
        match onFail(Str(InvalidArgsMessage), prev)
        case Normal(_) => StepRun([FailHandled(index, Str(InvalidArgsMessage), prev)], Halt)
        case Threw(e) =>
          var c := Catch(tx, index, prev, e);
          StepRun([FailHandled(index, Str(InvalidArgsMessage), prev)] + c.events, c.end)
  }

  /** The chain entries `from` on: strictly increasing transaction indices, each in `[lo, hi)`. */
  ghost predicate ChainSegment(chain: seq<PrevResponse>, from: nat, lo: nat, hi: nat)
    requires from <= |chain|
  {
    && (forall m :: from <= m < |chain| ==> lo <= chain[m].transactionIndex < hi)
    && (forall m, n :: from <= m < n < |chain| ==> chain[m].transactionIndex < chain[n].transactionIndex)
  }

  /**
   * `seen` is what transaction `index` was shown: the chain up to the entries of the
   * transactions before it, and none of its own or later ones.
   */
  ghost predicate SeenChain(seen: seq<PrevResponse>, prev: seq<PrevResponse>, chain: seq<PrevResponse>, index: nat) {
    && prev <= seen <= chain
    && forall m :: |prev| <= m < |chain| ==> (m < |seen| <==> chain[m].transactionIndex < index)
  }

  /** What the loop did: the callbacks' events, the final chain, and how each started transaction ended. */
  datatype BatchRun = BatchRun(events: seq<Event>, chain: seq<PrevResponse>, ends: seq<StepEnd>)

  /** Every started transaction but the last continued; a run that stopped early ended in a stop. */
  ghost predicate EndsShape(count: nat, i: nat, ends: seq<StepEnd>) {
    && i + |ends| <= count
    && (forall j :: 0 <= j < |ends| - 1 ==> ends[j].Continue?)
    && (i + |ends| < count ==> |ends| > 0 && !ends[|ends| - 1].Continue?)
  }

  /** The events belong to transactions in `[lo, hi)`, in the order of those transactions. */
  ghost predicate EventsInOrder(events: seq<Event>, lo: nat, hi: nat) {
    && (forall k :: 0 <= k < |events| ==> lo <= events[k].index < hi)
    && (forall a, b :: 0 <= a < b < |events| ==> events[a].index <= events[b].index)
  }

  /** Every callback that was shown the chain saw exactly the entries of the transactions before it. */
  ghost predicate AllSeen(events: seq<Event>, prev: seq<PrevResponse>, chain: seq<PrevResponse>) {
    forall k :: 0 <= k < |events| && (events[k].ArgsRequested? || events[k].FailHandled?) ==>
      SeenChain(events[k].prev, prev, chain, events[k].index)
  }

  lemma EndsCons(count: nat, i: nat, e: StepEnd, ends: seq<StepEnd>)
    requires i < count && e.Continue? && EndsShape(count, i + 1, ends)
    ensures EndsShape(count, i, [e] + ends)
  {
    var all := [e] + ends;
    forall j | 0 <= j < |all| - 1 ensures all[j].Continue? {
      if j > 0 { assert all[j] == ends[j - 1]; }
    }
  }

  lemma EventsCons(s: seq<Event>, rest: seq<Event>, i: nat, hi: nat)
    requires forall k :: 0 <= k < |s| ==> s[k].index == i
    requires EventsInOrder(rest, i + 1, hi)
    ensures EventsInOrder(s + rest, i, if hi < i + 1 then i + 1 else hi)
  {
    var all := s + rest;
    forall k | 0 <= k < |all| ensures i <= all[k].index < (if hi < i + 1 then i + 1 else hi) {
      if k >= |s| { assert all[k] == rest[k - |s|]; }
    }
    forall a, b | 0 <= a < b < |all| ensures all[a].index <= all[b].index {
      if b >= |s| { assert all[b] == rest[b - |s|]; }
      if a >= |s| { assert all[a] == rest[a - |s|]; }
    }
  }

  lemma ChainCons(prev: seq<PrevResponse>, chain: seq<PrevResponse>, final: seq<PrevResponse>, i: nat, hi: nat)
    requires Extends(prev, chain, i)
    requires chain <= final && ChainSegment(final, |chain|, i + 1, hi)
    ensures prev <= final && ChainSegment(final, |prev|, i, if hi < i + 1 then i + 1 else hi)
  {
    if |chain| == |prev| + 1 {
      assert final[|prev|] == chain[|prev|];
    }
  }

  lemma SeenCons(s: seq<Event>, rest: seq<Event>, i: nat, prev: seq<PrevResponse>, chain: seq<PrevResponse>,
                 final: seq<PrevResponse>, hi: nat)
    requires EventsOf(s, i, prev) && Extends(prev, chain, i)
    requires chain <= final && ChainSegment(final, |chain|, i + 1, hi)
    requires AllSeen(rest, chain, final)
    requires forall k :: 0 <= k < |rest| ==> i + 1 <= rest[k].index
    ensures AllSeen(s + rest, prev, final)
  {
    var all := s + rest;
    forall k | 0 <= k < |all| && (all[k].ArgsRequested? || all[k].FailHandled?)
      ensures SeenChain(all[k].prev, prev, final, all[k].index)
    {
      if k >= |s| {
        assert all[k] == rest[k - |s|];
        if |chain| == |prev| + 1 {
          assert final[|prev|] == chain[|prev|];
        }
      } else {
        assert all[k] == s[k];
        forall m | |prev| <= m < |final| ensures final[m].transactionIndex >= i {
          if m == |prev| && |chain| == |prev| + 1 { assert final[m] == chain[m]; }
        }
      }
    }
  }

  /** The chain transaction `i + j` is shown when the `j` transactions before it, from `i` on, completed. */
  function ChainAt(txs: seq<Transaction>, i: nat, prev: seq<PrevResponse>, j: nat): seq<PrevResponse>
    requires i + j <= |txs|
    decreases j
  {
    if j == 0 then prev else ChainAt(txs, i + 1, ChainAfter(txs[i], i, prev), j - 1)
  }

  /**
   * How each started transaction ended, against the reference: transaction `i + j` continued
   * exactly when it completed on the chain it was shown, and the run was rejected exactly when
   * its last transaction's `onFail` threw.
   */
  ghost predicate Outcomes(txs: seq<Transaction>, i: nat, prev: seq<PrevResponse>, ends: seq<StepEnd>)
    requires i + |ends| <= |txs|
  {
    && (forall j :: 0 <= j < |ends| ==> (ends[j].Continue? <==> Completes(txs[i + j], ChainAt(txs, i, prev, j))))
    && (|ends| > 0 ==> (ends[|ends| - 1].Abort? <==> Rejects(txs[i + |ends| - 1], ChainAt(txs, i, prev, |ends| - 1))))
  }

  /** A transaction that did not complete leaves the chain as it was. */
  lemma ChainAfterIncomplete(tx: Transaction, index: nat, prev: seq<PrevResponse>)
    requires !Completes(tx, prev)
    ensures ChainAfter(tx, index, prev) == prev
  {
  }

  lemma OutcomesCons(txs: seq<Transaction>, i: nat, prev: seq<PrevResponse>, e: StepEnd, ends: seq<StepEnd>)
    requires i + 1 + |ends| <= |txs|
    requires e.Continue? && Completes(txs[i], prev)
    requires Outcomes(txs, i + 1, ChainAfter(txs[i], i, prev), ends)
    ensures Outcomes(txs, i, prev, [e] + ends)
  {
    var all := [e] + ends;
    var next := ChainAfter(txs[i], i, prev);
    forall j | 0 <= j < |all|
      ensures all[j].Continue? <==> Completes(txs[i + j], ChainAt(txs, i, prev, j))
    {
      if j > 0 {
        assert all[j] == ends[j - 1];
        assert ChainAt(txs, i, prev, j) == ChainAt(txs, i + 1, next, j - 1);
      }
    }
    if |ends| > 0 {
      assert all[|all| - 1] == ends[|ends| - 1];
      assert ChainAt(txs, i, prev, |all| - 1) == ChainAt(txs, i + 1, next, |ends| - 1);
    }
  }

  /** A step that continued, followed by a run from the next position, is a run from this one. */
  lemma RunCons(txs: seq<Transaction>, i: nat, prev: seq<PrevResponse>, s: StepRun, rest: BatchRun)
    requires i < |txs| && s.end.Continue?
    requires EventsOf(s.events, i, prev) && Extends(prev, s.end.chain, i)
    requires EndsShape(|txs|, i + 1, rest.ends)
    requires EventsInOrder(rest.events, i + 1, i + 1 + |rest.ends|)
    requires s.end.chain <= rest.chain && ChainSegment(rest.chain, |s.end.chain|, i + 1, i + 1 + |rest.ends|)
    requires AllSeen(rest.events, s.end.chain, rest.chain)
    ensures EndsShape(|txs|, i, [s.end] + rest.ends)
    ensures EventsInOrder(s.events + rest.events, i, i + |[s.end] + rest.ends|)
    ensures prev <= rest.chain && ChainSegment(rest.chain, |prev|, i, i + |[s.end] + rest.ends|)
    ensures AllSeen(s.events + rest.events, prev, rest.chain)
  {
    var hi := i + 1 + |rest.ends|;
    EndsCons(|txs|, i, s.end, rest.ends);
    EventsCons(s.events, rest.events, i, hi);
    ChainCons(prev, s.end.chain, rest.chain, i, hi);
    SeenCons(s.events, rest.events, i, prev, s.end.chain, rest.chain, hi);
  }

  lemma StopRun(count: nat, i: nat, prev: seq<PrevResponse>, s: StepRun)
    requires i < count && !s.end.Continue? && EventsOf(s.events, i, prev)
    ensures EndsShape(count, i, [s.end])
    ensures EventsInOrder(s.events, i, i + 1)
    ensures AllSeen(s.events, prev, prev)
  {
  }

  /** `for (const transaction of transactions.slice(i))` with the chain so far. */
  function Run(txs: seq<Transaction>, i: nat, prev: seq<PrevResponse>): (r: BatchRun)
    requires i <= |txs|
    ensures EndsShape(|txs|, i, r.ends)
    ensures EventsInOrder(r.events, i, i + |r.ends|)
    ensures prev <= r.chain && ChainSegment(r.chain, |prev|, i, i + |r.ends|)
    ensures AllSeen(r.events, prev, r.chain)
    ensures Outcomes(txs, i, prev, r.ends)
    ensures r.chain == ChainAt(txs, i, prev, |r.ends|)
    decreases |txs| - i
  {
    if i == |txs| then BatchRun([], prev, [])
    else
      var s := Step(txs[i], i, prev);
      match s.end
      case Continue(chain) =>
        var rest := Run(txs, i + 1, chain);
        RunCons(txs, i, prev, s, rest);
        OutcomesCons(txs, i, prev, s.end, rest.ends);
        BatchRun(s.events + rest.events, rest.chain, [s.end] + rest.ends)
      case _ =>
        StopRun(|txs|, i, prev, s);
        ChainAfterIncomplete(txs[i], i, prev);
        BatchRun(s.events, prev, [s.end])
  }

  /**
   * `run` stopped at the first transaction that did not complete: every earlier one completed
   * on the chain it saw, a run that stopped early ended on one that did not, and no event
   * belongs to a transaction that never started.
   */
  ghost predicate StopsAtFirstFailure(txs: seq<Transaction>, run: BatchRun)
  {
    var n := |run.ends|;
    && n <= |txs|
    && (forall j :: 0 <= j < n - 1 ==> Completes(txs[j], ChainAt(txs, 0, [], j)))
    && (n < |txs| ==> n > 0 && !Completes(txs[n - 1], ChainAt(txs, 0, [], n - 1)))
    && (n > 0 && Completes(txs[n - 1], ChainAt(txs, 0, [], n - 1)) ==> n == |txs|)
    && (forall k :: 0 <= k < |run.events| ==> run.events[k].index < n)
  }

  /**
   * A batch run from the start (`Run(txs, 0, [])` ensures the requires) runs its transactions
   * in order until the first one that does not complete, which is the last to start, and only
   * that one's `onFail` can reject the batch.
   */
  lemma FirstFailure(txs: seq<Transaction>, run: BatchRun)
    requires EndsShape(|txs|, 0, run.ends) && Outcomes(txs, 0, [], run.ends)
    requires EventsInOrder(run.events, 0, |run.ends|)
    ensures StopsAtFirstFailure(txs, run)
    ensures var n := |run.ends|;
      n > 0 ==> (run.ends[n - 1].Abort? <==> Rejects(txs[n - 1], ChainAt(txs, 0, [], n - 1)))
  {
    var ends := run.ends;
    forall j | 0 <= j < |ends| - 1 ensures Completes(txs[j], ChainAt(txs, 0, [], j)) {
      assert ends[j].Continue?;
      assert txs[0 + j] == txs[j];
    }
    if |ends| > 0 {
      assert txs[0 + |ends| - 1] == txs[|ends| - 1];
    }
  }
}

=== FILE: byte_order.dfy ===
/**
 * `compare` of src/utils/request_id.ts: buffers are ordered by length first, then by their
 * first differing byte.  The lemmas show it is a total order whose zero is byte equality and
 * which, between buffers of equal length (such as two 32-byte hashes), is lexicographic order.
 */
module ByteOrder {
  import opened Bytes

  /** `compare(b1, b2)`: zero exactly on equal buffers, by length first, then by the first differing byte. */
  function Compare(b1: Bytes, b2: Bytes): (r: int)
    ensures r == 0 <==> b1 == b2
    ensures |b1| != |b2| ==> (r < 0 <==> |b1| < |b2|)
    ensures |b1| == |b2| ==> (r < 0 <==> LexLessFrom(b1, b2, 0))
  {
    if |b1| != |b2| then |b1| - |b2|
    else
      CompareFromZeroIff(b1, b2, 0);
      CompareFromLex(b1, b2, 0);
      assert b1[0..] == b1 && b2[0..] == b2;
      CompareFrom(b1, b2, 0)
  }

  /** The source's loop from index `i` on, for equal-length buffers. */
  function CompareFrom(b1: Bytes, b2: Bytes, i: nat): int
    requires |b1| == |b2| && i <= |b1|
    decreases |b1| - i
  {
    if i == |b1| then 0
    else if b1[i] != b2[i] then b1[i] as int - b2[i] as int
    else CompareFrom(b1, b2, i + 1)
  }

  /** `b1` is lexicographically below `b2` at or after index `i`: they agree up to some `k`
      and `b1[k] < b2[k]`. */
  ghost predicate LexLessFrom(b1: Bytes, b2: Bytes, i: nat)
    requires |b1| == |b2|
  {
    exists k :: i <= k < |b1| && b1[i..k] == b2[i..k] && b1[k] < b2[k]
  }

  lemma {:induction false} CompareFromZeroIff(b1: Bytes, b2: Bytes, i: nat)
    requires |b1| == |b2| && i <= |b1|
    ensures CompareFrom(b1, b2, i) == 0 <==> b1[i..] == b2[i..]
    decreases |b1| - i
  {
    if i < |b1| {
      CompareFromZeroIff(b1, b2, i + 1);
      assert b1[i..] == [b1[i]] + b1[i + 1..];
      assert b2[i..] == [b2[i]] + b2[i + 1..];
    }
  }

  /** `compare` returns 0 exactly on byte-equal buffers. */
  lemma CompareZeroIff(b1: Bytes, b2: Bytes)
    ensures Compare(b1, b2) == 0 <==> b1 == b2
  {
    if |b1| == |b2| {
      CompareFromZeroIff(b1, b2, 0);
      assert b1[0..] == b1 && b2[0..] == b2;
    }
  }

  lemma {:induction false} CompareFromSwap(b1: Bytes, b2: Bytes, i: nat)
    requires |b1| == |b2| && i <= |b1|
    ensures CompareFrom(b2, b1, i) == -CompareFrom(b1, b2, i)
    decreases |b1| - i
  {
    if i < |b1| && b1[i] == b2[i] {
      CompareFromSwap(b1, b2, i + 1);
    }
  }

  /** Swapping the arguments negates the result, so the order is antisymmetric. */
  lemma CompareSwap(b1: Bytes, b2: Bytes)
    ensures Compare(b2, b1) == -Compare(b1, b2)
  {
    if |b1| == |b2| {
      CompareFromSwap(b1, b2, 0);
    }
  }

  lemma {:induction false} CompareFromTransitive(a: Bytes, b: Bytes, c: Bytes, i: nat)
    requires |a| == |b| == |c| && i <= |a|
    requires CompareFrom(a, b, i) <= 0 && CompareFrom(b, c, i) <= 0
    ensures CompareFrom(a, c, i) <= 0
    decreases |a| - i
  {
    if i < |a| && a[i] == b[i] && b[i] == c[i] {
      CompareFromTransitive(a, b, c, i + 1);
    }
  }

  /** `compare(a, b) <= 0` is transitive. */
  lemma CompareTransitive(a: Bytes, b: Bytes, c: Bytes)
    requires Compare(a, b) <= 0 && Compare(b, c) <= 0
    ensures Compare(a, c) <= 0
  {
    if |a| == |b| == |c| {
      CompareFromTransitive(a, b, c, 0);
    }
  }

  lemma {:induction false} CompareFromLex(b1: Bytes, b2: Bytes, i: nat)
    requires |b1| == |b2| && i <= |b1|
    ensures CompareFrom(b1, b2, i) < 0 <==> LexLessFrom(b1, b2, i)
    decreases |b1| - i
  {
    if i < |b1| {
      CompareFromLex(b1, b2, i + 1);
      if b1[i] < b2[i] {
        assert b1[i..i] == b2[i..i];
      } else if b1[i] > b2[i] {
      } else {
        if LexLessFrom(b1, b2, i) {
          var k :| i <= k < |b1| && b1[i..k] == b2[i..k] && b1[k] < b2[k];
          assert k != i;
          assert b1[i + 1..k] == b1[i..k][1..] && b2[i + 1..k] == b2[i..k][1..];
          assert LexLessFrom(b1, b2, i + 1);
        }
        if LexLessFrom(b1, b2, i + 1) {
          var k :| i + 1 <= k < |b1| && b1[i + 1..k] == b2[i + 1..k] && b1[k] < b2[k];
          assert b1[i..k] == [b1[i]] + b1[i + 1..k] && b2[i..k] == [b2[i]] + b2[i + 1..k];
        }
      }
    }
  }

  /** Between equal-length buffers, `compare` is plain lexicographic order. */
  lemma CompareLexicographic(b1: Bytes, b2: Bytes)
    requires |b1| == |b2|
    ensures Compare(b1, b2) < 0 <==> LexLessFrom(b1, b2, 0)
  {
    CompareFromLex(b1, b2, 0);
  }

  /** Buffers of different length are ordered by length alone. */
  lemma CompareByLength(b1: Bytes, b2: Bytes)
    requires |b1| < |b2|
    ensures Compare(b1, b2) < 0
  {
  }
}

=== FILE: bytes.dfy ===
/**
 * Byte buffers and their concatenation (`concat` of src/utils/buffer.ts, duplicated verbatim
 * in src/utils/request_id.ts).  `Flatten` is the value the concatenation denotes; the method
 * `Concat` follows the source's algorithm: allocate the total length, then copy each input at
 * the running offset.
 */
module Bytes {

  newtype byte = x: int | 0 <= x < 256

  type Bytes = seq<byte>

  /** The inputs laid end to end, in argument order. */
  function Flatten(bufs: seq<Bytes>): Bytes
    decreases |bufs|
  {
    if |bufs| == 0 then [] else Flatten(bufs[..|bufs| - 1]) + bufs[|bufs| - 1]
  }

  /** The `reduce` that sizes the result: the sum of the input lengths. */
  function TotalLength(bufs: seq<Bytes>): nat
    decreases |bufs|
  {
    if |bufs| == 0 then 0 else TotalLength(bufs[..|bufs| - 1]) + |bufs[|bufs| - 1]|
  }

  /** Where input `i` starts in the result: the total length of the inputs before it. */
  function Offset(bufs: seq<Bytes>, i: nat): nat
    requires i <= |bufs|
  {
    TotalLength(bufs[..i])
  }

  lemma {:induction false} FlattenLength(bufs: seq<Bytes>)
    ensures |Flatten(bufs)| == TotalLength(bufs)
    decreases |bufs|
  {
    if |bufs| > 0 {
      FlattenLength(bufs[..|bufs| - 1]);
    }
  }

  /** Flattening one more input appends exactly that input. */
  lemma FlattenSnoc(bufs: seq<Bytes>, b: Bytes)
    ensures Flatten(bufs + [b]) == Flatten(bufs) + b
  {
    assert (bufs + [b])[..|bufs|] == bufs;
  }

  /** Flattening distributes over splitting the argument list. */
  lemma {:induction false} FlattenAppend(xs: seq<Bytes>, ys: seq<Bytes>)
    ensures Flatten(xs + ys) == Flatten(xs) + Flatten(ys)
    decreases |ys|
  {
    if |ys| == 0 {
      assert xs + ys == xs;
    } else {
      var ys' := ys[..|ys| - 1];
      var y := ys[|ys| - 1];
      assert xs + ys == (xs + ys') + [y];
      assert ys == ys' + [y];
      FlattenSnoc(xs + ys', y);
      FlattenAppend(xs, ys');
      FlattenSnoc(ys', y);
    }
  }

  lemma {:induction false} TotalLengthPrefix(bufs: seq<Bytes>, i: nat)
    requires i < |bufs|
    ensures TotalLength(bufs[..i + 1]) == TotalLength(bufs[..i]) + |bufs[i]|
    ensures Offset(bufs, i) + |bufs[i]| <= TotalLength(bufs)
  {
    assert bufs[..i + 1][..i] == bufs[..i];
    FlattenLength(bufs);
    FlattenLength(bufs[..i + 1]);
    assert bufs == bufs[..i + 1] + bufs[i + 1..];
    FlattenAppend(bufs[..i + 1], bufs[i + 1..]);
  }

  /**
   * The layout of a concatenation: its length is the sum of the input lengths, and input `i`
   * occupies the bytes from its offset, the total length of the inputs before it.
   */
  lemma {:induction false} FlattenLayout(bufs: seq<Bytes>)
    ensures |Flatten(bufs)| == TotalLength(bufs)
    ensures forall i :: 0 <= i < |bufs| ==>
      Offset(bufs, i) + |bufs[i]| <= |Flatten(bufs)| &&
      Flatten(bufs)[Offset(bufs, i)..Offset(bufs, i) + |bufs[i]|] == bufs[i]
  {
    FlattenLength(bufs);
    forall i | 0 <= i < |bufs|
      ensures Offset(bufs, i) + |bufs[i]| <= |Flatten(bufs)|
      ensures Flatten(bufs)[Offset(bufs, i)..Offset(bufs, i) + |bufs[i]|] == bufs[i]
    {
      TotalLengthPrefix(bufs, i);
      assert bufs == bufs[..i] + ([bufs[i]] + bufs[i + 1..]);
      FlattenAppend(bufs[..i], [bufs[i]] + bufs[i + 1..]);
      FlattenAppend([bufs[i]], bufs[i + 1..]);
      assert Flatten([bufs[i]]) == bufs[i] by {
        assert [bufs[i]][..0] == [];
      }
      FlattenLength(bufs[..i]);
    }
  }

  /** One step of the copy loop: writing input `i` at its offset extends the filled prefix. */
  lemma CopyStep(bufs: seq<Bytes>, i: nat, before: Bytes, after: Bytes)
    requires i < |bufs|
    requires Offset(bufs, i) + |bufs[i]| <= |before|
    requires before[..Offset(bufs, i)] == Flatten(bufs[..i])
    requires after == before[..Offset(bufs, i)] + bufs[i] + before[Offset(bufs, i) + |bufs[i]|..]
    ensures |after| == |before|
    ensures Offset(bufs, i + 1) == Offset(bufs, i) + |bufs[i]|
    ensures after[..Offset(bufs, i + 1)] == Flatten(bufs[..i + 1])
  {
    TotalLengthPrefix(bufs, i);
    assert after[..Offset(bufs, i) + |bufs[i]|] == before[..Offset(bufs, i)] + bufs[i];
    FlattenSnoc(bufs[..i], bufs[i]);
    assert bufs[..i + 1] == bufs[..i] + [bufs[i]];
  }

  /** The facts `Concat` promises beyond equality with `Flatten`. */
  lemma ConcatFacts(bufs: seq<Bytes>)
    ensures |bufs| == 1 ==> Flatten(bufs) == bufs[0]
  {
    if |bufs| == 1 {
      assert bufs[..0] == [];
    }
  }

  /**
   * `concat(...buffers)`: a zero-filled result of the total length, into which each input is
   * copied at the running index.
   */
  method Concat(bufs: seq<Bytes>) returns (result: Bytes)
    ensures |result| == TotalLength(bufs)
    ensures forall i :: 0 <= i < |bufs| ==>
      Offset(bufs, i) + |bufs[i]| <= |result| &&
      result[Offset(bufs, i)..Offset(bufs, i) + |bufs[i]|] == bufs[i]
    ensures |bufs| == 0 ==> result == []
    ensures |bufs| == 1 ==> result == bufs[0]
    ensures result == Flatten(bufs)
  {
    var total := TotalLength(bufs);
    result := seq(total, _ => 0);
    var index := 0;
    for i := 0 to |bufs|
      invariant |result| == total
      invariant index == Offset(bufs, i) <= total
      invariant result[..index] == Flatten(bufs[..i])
    {
      TotalLengthPrefix(bufs, i);
      var b := bufs[i];
      var next := result[..index] + b + result[index + |b|..];
      CopyStep(bufs, i, result, next);
      result := next;
      index := index + |b|;
    }
    assert bufs[..|bufs|] == bufs;
    assert result == result[..index];
    FlattenLayout(bufs);
    ConcatFacts(bufs);
  }
}

=== FILE: encoding.dfy ===
/**
 * The two byte encodings the request-id hash applies to scalars: UTF-8 (what `TextEncoder`
 * produces for a string) and unsigned LEB128 (what `lebEncode` of the Candid library produces
 * for a non-negative integer).  Both are written out so that hashes of strings and numbers are
 * concrete.
 */
module Utf8 {
  import opened Bytes

  /** The UTF-8 encoding of one Unicode scalar value: one to four bytes. */
  function EncodeChar(c: char): (r: Bytes)
    ensures 1 <= |r| <= 4
    ensures (c as int < 0x80) <==> |r| == 1
    ensures |r| == 1 ==> r[0] as int == c as int
    ensures forall k :: 1 <= k < |r| ==> 0x80 <= r[k] < 0xC0
  {
    var n := c as int;
    if n < 0x80 then [n as byte]
    else if n < 0x800 then [(0xC0 + n / 64) as byte, (0x80 + n % 64) as byte]
    else if n < 0x10000 then
      [(0xE0 + n / 4096) as byte, (0x80 + (n / 64) % 64) as byte, (0x80 + n % 64) as byte]
    else
      [(0xF0 + n / 262144) as byte, (0x80 + (n / 4096) % 64) as byte,
       (0x80 + (n / 64) % 64) as byte, (0x80 + n % 64) as byte]
  }

  /** `new TextEncoder().encode(s)`. */
  function Encode(s: string): Bytes
    decreases |s|
  {
    if |s| == 0 then [] else EncodeChar(s[0]) + Encode(s[1..])
  }

  /** An ASCII string encodes to its own code points, one byte per character. */
  lemma {:induction false} EncodeAscii(s: string)
    requires forall i :: 0 <= i < |s| ==> s[i] as int < 0x80
    ensures |Encode(s)| == |s|
    ensures forall i :: 0 <= i < |s| ==> Encode(s)[i] as int == s[i] as int
    decreases |s|
  {
    if |s| > 0 {
      EncodeAscii(s[1..]);
      assert Encode(s) == [EncodeChar(s[0])[0]] + Encode(s[1..]);
      forall i | 0 <= i < |s|
        ensures Encode(s)[i] as int == s[i] as int
      {
        if i > 0 {
          assert Encode(s)[i] == Encode(s[1..])[i - 1];
          assert s[1..][i - 1] == s[i];
        }
      }
    }
  }

  /** An ASCII string encodes to exactly the bytes holding its code points. */
  lemma EncodeAsciiAs(s: string, b: Bytes)
    requires |s| == |b| && forall i :: 0 <= i < |s| ==> s[i] as int < 0x80 && b[i] as int == s[i] as int
    ensures Encode(s) == b
  {
    EncodeAscii(s);
  }
}

module Leb128 {
  import opened Bytes

  /** Unsigned LEB128: seven bits per byte, least significant first, high bit = "more follows". */
  function Encode(n: nat): (r: Bytes)
    ensures |r| >= 1
    decreases n
  {
    if n < 128 then [n as byte] else [(n % 128 + 128) as byte] + Encode(n / 128)
  }

  /** A well-formed encoding: every byte but the last carries the continuation bit. */
  predicate WellFormed(b: Bytes) {
    |b| >= 1 && b[|b| - 1] < 128 && forall k :: 0 <= k < |b| - 1 ==> b[k] >= 128
  }

  /** The decoder the network applies to a LEB128 byte string. */
  function Decode(b: Bytes): nat
    decreases |b|
  {
    if |b| == 0 then 0
    else if b[0] < 128 then b[0] as nat
    else (b[0] as nat - 128) + 128 * Decode(b[1..])
  }

  /** Encoding is well-formed and decoding it gives back the number. */
  lemma {:induction false} RoundTrip(n: nat)
    ensures WellFormed(Encode(n))
    ensures Decode(Encode(n)) == n
    decreases n
  {
    if n >= 128 {
      RoundTrip(n / 128);
      var r := Encode(n);
      assert r[1..] == Encode(n / 128);
      forall k | 0 <= k < |r| - 1
        ensures r[k] >= 128
      {
        if k > 0 {
          assert r[k] == Encode(n / 128)[k - 1];
        }
      }
    }
  }

  /** Encoding is injective: distinct numbers never share an encoding. */
  lemma EncodeInjective(m: nat, n: nat)
    requires Encode(m) == Encode(n)
    ensures m == n
  {
    RoundTrip(m);
    RoundTrip(n);
  }
}

=== FILE: foreign.dfy ===
/**
 * The libraries the bridge calls but does not implement, as total functions handed to the
 * model: SHA-256 (js-sha256), hex decoding, Secp256k1 DER encoding (@dfinity/identity),
 * self-authenticating principals and their text form (@dfinity/principal), the account
 * identifier (src/utils/account.ts), base64 (src/utils/communication.ts), Candid encode/decode
 * and the bigint-to-number conversion (src/utils/bigint.ts).  Nothing is assumed about them
 * except what a contract names in its `requires`.
 */
module Foreign {
  import opened Bytes
  import opened JsValue

  /** A SHA-256 digest: always 32 bytes. */
  type Digest = s: Bytes | |s| == 32 witness seq(32, _ => 0)

  type Sha256 = Bytes -> Digest

  /** An opaque Candid type; a method's argument types are a list of them. */
  datatype IdlType = IdlType(name: string)

  type ArgTypes = seq<IdlType>

  datatype Library = Library(
    sha256: Sha256,
    hexToBytes: string -> Bytes,
    /** `Secp256k1PublicKey.fromRaw(raw).toDer()` */
    secp256k1Der: Bytes -> Bytes,
    /** `Principal.selfAuthenticating(der).toUint8Array()` */
    selfAuthenticating: Bytes -> Bytes,
    /** `Principal#toString()` of a principal's raw bytes */
    principalText: Bytes -> string,
    /** `getAccountId(principal)` */
    accountId: Bytes -> string,
    base64Encode: Bytes -> string,
    base64Decode: string -> Bytes,
    idlEncode: (ArgTypes, seq<JsValue>) -> Bytes,
    idlDecode: (ArgTypes, Bytes) -> seq<JsValue>,
    /** `recursiveParseBigint` */
    parseBigint: seq<JsValue> -> seq<JsValue>
  )

  /** `base64ToBuffer(bufferToBase64(b))` gives back `b`. */
  ghost predicate Base64RoundTrip(lib: Library) {
    forall b: Bytes :: lib.base64Decode(lib.base64Encode(b)) == b
  }
}

=== FILE: identity.dfy ===
/**
 * `PlugIdentity` of src/identity.ts: the identity the agent signs with.  It refuses to sign any
 * request that is not a `read_state` and targets a canister outside its whitelist, signs the
 * domain-separated request id through a callback, and wraps the body in the signed envelope.
 */
module Identity {
  import opened Wrappers
  import opened Bytes
  import opened JsValue
  import opened Foreign
  import opened Protocol
  import Utf8
  import RequestId

  /** A `PlugIdentity`: the raw secp256k1 public key, the whitelist, and the cached principal. */
  datatype PlugIdentity = PlugIdentity(rawKey: Bytes, whitelist: seq<string>, principal: Option<Bytes>)

  /** `new PlugIdentity(hexPublicRawKey, signCb, whitelist)`; a null or undefined whitelist is `None`. */
  function NewIdentity(lib: Library, hexPublicRawKey: string, whitelist: Option<seq<string>>): (id: PlugIdentity)
    ensures id.principal.None?
    ensures id.rawKey == lib.hexToBytes(hexPublicRawKey)
    ensures whitelist.None? ==> id.whitelist == []
    ensures whitelist.Some? ==> id.whitelist == whitelist.value
  {
    PlugIdentity(lib.hexToBytes(hexPublicRawKey), whitelist.GetOr([]), None)
  }

  /** `getPublicKey().toDer()`. */
  function PublicKeyDer(lib: Library, id: PlugIdentity): Bytes {
    lib.secp256k1Der(id.rawKey)
  }

  /** `getPrincipal()`: the principal, derived from the DER key on the first call and cached. */
  function GetPrincipal(lib: Library, id: PlugIdentity): (r: (Bytes, PlugIdentity))
    ensures r.1.rawKey == id.rawKey && r.1.whitelist == id.whitelist
    ensures r.1.principal == Some(r.0)
    ensures id.principal.Some? ==> r == (id.principal.value, id)
    ensures id.principal.None? ==> r.0 == lib.selfAuthenticating(PublicKeyDer(lib, id))
  {
    match id.principal
    case Some(p) => (p, id)
    case None =>
      var p := lib.selfAuthenticating(PublicKeyDer(lib, id));
      (p, id.(principal := Some(p)))
  }

  /** `n` successive `getPrincipal()` calls: the principals returned and how many were derived. */
  function GetPrincipalRepeatedly(lib: Library, id: PlugIdentity, n: nat)
    : (r: (seq<Bytes>, PlugIdentity, nat))
    ensures |r.0| == n
    decreases n
  {
    if n == 0 then ([], id, 0)
    else
      var (p, id1) := GetPrincipal(lib, id);
      var (ps, id2, derived) := GetPrincipalRepeatedly(lib, id1, n - 1);
      ([p] + ps, id2, derived + (if id.principal.None? then 1 else 0))
  }

  /**
   * However many times `getPrincipal()` is called, the principal is derived at most once (never
   * when one is cached), and every call returns the same principal.
   */
  lemma {:induction false} PrincipalDerivedOnce(lib: Library, id: PlugIdentity, n: nat)
    ensures GetPrincipalRepeatedly(lib, id, n).2 <= 1
    ensures id.principal.Some? ==> GetPrincipalRepeatedly(lib, id, n).2 == 0
    ensures forall i :: 0 <= i < n ==>
      GetPrincipalRepeatedly(lib, id, n).0[i] == GetPrincipal(lib, id).0
    decreases n
  {
    if n > 0 {
      var (p, id1) := GetPrincipal(lib, id);
      PrincipalDerivedOnce(lib, id1, n - 1);
      var r := GetPrincipalRepeatedly(lib, id, n);
      var rest := GetPrincipalRepeatedly(lib, id1, n - 1);
      assert r.0 == [p] + rest.0;
      assert GetPrincipal(lib, id1).0 == p;
    }
  }

  /** `new TextEncoder().encode("\x0Aic-request")`. */
  const DomainSeparator: Bytes := Utf8.Encode("\nic-request")

  /** The domain separator is the 11 bytes 0x0A followed by the ASCII text "ic-request". */
  lemma DomainSeparatorBytes()
    ensures DomainSeparator == [0x0A, 0x69, 0x63, 0x2D, 0x72, 0x65, 0x71, 0x75, 0x65, 0x73, 0x74]
  {
    Utf8.EncodeAsciiAs("\nic-request", [0x0A, 0x69, 0x63, 0x2D, 0x72, 0x65, 0x71, 0x75, 0x65, 0x73, 0x74]);
  }

  /** A request body, as its entries. */
  type Body = seq<RequestId.Entry>

  /** `body.request_type === ReadRequestType.ReadState`. */
  predicate IsReadState(body: Body) {
    Lookup(body, "request_type") == Str("read_state")
  }

  /**
   * The raw bytes of the principal `Principal.fromUint8Array(v._arr)` builds, or of `v` itself
   * when it is a principal; `None` when there are none (the principal then throws when printed).
   */
  function PrincipalBytes(v: JsValue): Option<Bytes> {
    match v
    case Object(Some(raw), _, _) => Some(raw)
    case Object(None, _, fields) =>
      (match Lookup(fields, "_arr") case Buffer(b) => Some(b) case _ => None)
    case _ => None
  }

  /** The canister a body targets. */
  function CanisterOf(body: Body): Option<Bytes> {
    PrincipalBytes(Lookup(body, "canister_id"))
  }

  datatype IdentityError =
    /** The 401 rejection for a canister outside the whitelist, carrying its text form. */
    | NotAllowed(canister: string)
    /** The body's canister id is no principal, so printing it throws. */
    | MalformedCanisterId
    | Unhashable(reason: RequestId.HashError)
    /** `Principal.from` rejects a sender or canister id that is neither text nor a principal. */
    | NotAPrincipal(value: JsValue)
    /** The sign callback rejected. */
    | SignRejected

  /** The message of the error thrown for a canister outside the whitelist. */
  function NotAllowedMessage(canister: string): string {
    "Request failed:\n  Code: 401\n  Body: Plug Identity is not allowed to make requests to canister Id " + canister
  }

  /** The whitelist check of `transformRequest`, which comes before anything is hashed or signed. */
  function Gate(lib: Library, whitelist: seq<string>, body: Body): (r: Result<(), IdentityError>)
    ensures r.Success? <==>
      IsReadState(body) || (CanisterOf(body).Some? && lib.principalText(CanisterOf(body).value) in whitelist)
    ensures r.Failure? && CanisterOf(body).Some? ==>
      r.error == NotAllowed(lib.principalText(CanisterOf(body).value))
  {
    if IsReadState(body) then Success(())
    else
      match CanisterOf(body)
      case None => Failure(MalformedCanisterId)
      case Some(raw) =>
        var text := lib.principalText(raw);
        if text in whitelist then Success(()) else Failure(NotAllowed(text))
  }

  /** A string-typed field as the sign info carries it (`undefined` for anything else). */
  function StringOf(v: JsValue): Option<string> {
    match v
    case Str(s) => Some(s)
    case _ => None
  }

  /** `v && Principal.from(v).toString()`. */
  function PrincipalField(lib: Library, v: JsValue): (r: Result<Option<string>, IdentityError>)
    ensures !Truthy(v) ==> r == Success(StringOf(v))
    ensures r.Failure? ==> r.error == NotAPrincipal(v)
    ensures v.Object? && v.principal.Some? ==> r == Success(Some(lib.principalText(v.principal.value)))
  {
    if !Truthy(v) then Success(StringOf(v))
    else
      match v
      case Str(s) => Success(Some(s))
      case Object(Some(raw), _, _) => Success(Some(lib.principalText(raw)))
      case _ => Failure(NotAPrincipal(v))
  }

  /** The sign info `sign(blob, body)` hands the callback. */
  function SignInfoOf(lib: Library, body: Body): (r: Result<SignInfo, IdentityError>)
    ensures r.Success? ==>
      && r.value.methodName == StringOf(Lookup(body, "method_name"))
      && r.value.requestType == StringOf(Lookup(body, "request_type"))
      && r.value.arguments == (match Lookup(body, "arg") case Buffer(b) => Some(b) case _ => None)
      && r.value.manual == Some(false)
      && r.value.preApprove.None? && r.value.decodedArguments.None?
    ensures r.Failure? ==> r.error.NotAPrincipal?
    ensures r.Success? <==>
      PrincipalField(lib, Lookup(body, "sender")).Success?
      && PrincipalField(lib, Lookup(body, "canister_id")).Success?
    ensures r.Success? ==>
      && r.value.sender == PrincipalField(lib, Lookup(body, "sender")).value
      && r.value.canisterId == PrincipalField(lib, Lookup(body, "canister_id")).value
  {
    match PrincipalField(lib, Lookup(body, "sender"))
    case Failure(e) => Failure(e)
    case Success(sender) =>
      match PrincipalField(lib, Lookup(body, "canister_id"))
      case Failure(e) => Failure(e)
      case Success(canisterId) =>
        Success(SignInfo(
          methodName := StringOf(Lookup(body, "method_name")),
          requestType := StringOf(Lookup(body, "request_type")),
          canisterId := canisterId,
          sender := sender,
          arguments := (match Lookup(body, "arg") case Buffer(b) => Some(b) case _ => None),
          decodedArguments := None,
          manual := Some(false),
          preApprove := None))
  }

  /** One invocation of the sign callback. */
  datatype SignCall = SignCall(payload: Bytes, info: SignInfo)

  /** An `HttpAgentRequest`: its body and every other field. */
  datatype HttpAgentRequest = HttpAgentRequest(fields: seq<(string, JsValue)>, body: Body)

  datatype SignedBody = SignedBody(content: Body, senderPubkey: Bytes, senderSig: Bytes)

  /** The transformed request: the other fields unchanged, the body wrapped and signed. */
  datatype SignedRequest = SignedRequest(fields: seq<(string, JsValue)>, body: SignedBody)

  /** What `transformRequest` did: the sign callback calls it made, and its outcome. */
  datatype Transformed = Transformed(signCalls: seq<SignCall>, result: Result<SignedRequest, IdentityError>)

  /**
   * The part of `transformRequest` after the whitelist check: hash the body, build the sign
   * info, and ask the callback (whose answer is `signature`, `None` when it rejects).
   */
  function SignAdmitted(lib: Library, id: PlugIdentity, request: HttpAgentRequest, signature: Option<Bytes>)
    : (t: Transformed)
    ensures |t.signCalls| <= 1
    ensures |t.signCalls| == 1 <==>
      RequestId.RequestIdOf(lib.sha256, request.body).Success? && SignInfoOf(lib, request.body).Success?
    ensures |t.signCalls| == 1 ==>
      && RequestId.RequestIdOf(lib.sha256, request.body).Success?
      && t.signCalls[0].payload == DomainSeparator + RequestId.RequestIdOf(lib.sha256, request.body).value
      && SignInfoOf(lib, request.body) == Success(t.signCalls[0].info)
    ensures t.result.Success? <==> |t.signCalls| == 1 && signature.Some?
    ensures t.result.Success? ==>
      t.result.value == SignedRequest(request.fields, SignedBody(request.body, PublicKeyDer(lib, id), signature.value))
    ensures t.result.Failure? ==>
      t.result.error.Unhashable? || t.result.error.NotAPrincipal? || t.result.error.SignRejected?
  {
    match RequestId.RequestIdOf(lib.sha256, request.body)
    case Failure(e) => Transformed([], Failure(Unhashable(e)))
    case Success(requestId) =>
      match SignInfoOf(lib, request.body)
      case Failure(e) => Transformed([], Failure(e))
      case Success(info) =>
        var call := SignCall(DomainSeparator + requestId, info);
        match signature
        case None => Transformed([call], Failure(SignRejected))
        case Some(sig) =>
          Transformed([call], Success(SignedRequest(request.fields,
            SignedBody(request.body, PublicKeyDer(lib, id), sig))))
  }

  /**
   * `transformRequest(request)`, given what the sign callback returns (`None` when it rejects).
   * The callback is consulted only when the gate admits the request, the body hashes and its
   * sign info can be built.
   */
  function TransformRequest(lib: Library, id: PlugIdentity, request: HttpAgentRequest, signature: Option<Bytes>)
    : (t: Transformed)
    ensures Gate(lib, id.whitelist, request.body).Failure? ==>
      t == Transformed([], Failure(Gate(lib, id.whitelist, request.body).error))
    ensures |t.signCalls| <= 1
    ensures |t.signCalls| == 1 ==>
      && Gate(lib, id.whitelist, request.body).Success?
      && RequestId.RequestIdOf(lib.sha256, request.body).Success?
      && t.signCalls[0].payload == DomainSeparator + RequestId.RequestIdOf(lib.sha256, request.body).value
      && SignInfoOf(lib, request.body) == Success(t.signCalls[0].info)
    ensures t.result.Success? ==>
      && |t.signCalls| == 1 && signature.Some?
      && t.result.value == SignedRequest(request.fields,
           SignedBody(request.body, PublicKeyDer(lib, id), signature.value))
    ensures Gate(lib, id.whitelist, request.body).Success? && t.result.Failure? ==>
      t.result.error.Unhashable? || t.result.error.NotAPrincipal? || t.result.error.SignRejected?
  {
    match Gate(lib, id.whitelist, request.body)
    case Failure(e) => Transformed([], Failure(e))
    case Success(_) => SignAdmitted(lib, id, request, signature)
  }

  /**
   * The request is signed exactly when it passes the gate, hashes, has a well-formed sender
   * and canister id, and the callback returns a signature.
   */
  lemma SignedIff(lib: Library, id: PlugIdentity, request: HttpAgentRequest, signature: Option<Bytes>)
    ensures TransformRequest(lib, id, request, signature).result.Success? <==>
      && Gate(lib, id.whitelist, request.body).Success?
      && RequestId.RequestIdOf(lib.sha256, request.body).Success?
      && SignInfoOf(lib, request.body).Success?
      && signature.Some?
  {
  }

  /** A non-`read_state` request for a canister outside the whitelist gets the 401 and no signature is requested. */
  lemma NotWhitelistedRejected(lib: Library, id: PlugIdentity, request: HttpAgentRequest, signature: Option<Bytes>, raw: Bytes)
    requires !IsReadState(request.body)
    requires CanisterOf(request.body) == Some(raw)
    requires lib.principalText(raw) !in id.whitelist
    ensures TransformRequest(lib, id, request, signature) ==
      Transformed([], Failure(NotAllowed(lib.principalText(raw))))
  {
  }

  /** A `read_state` request is never stopped by the whitelist, whatever canister it names. */
  lemma ReadStateSkipsGate(lib: Library, id: PlugIdentity, request: HttpAgentRequest, signature: Option<Bytes>)
    requires IsReadState(request.body)
    ensures !TransformRequest(lib, id, request, signature).result.Failure?
      || !(TransformRequest(lib, id, request, signature).result.error.NotAllowed?
           || TransformRequest(lib, id, request, signature).result.error.MalformedCanisterId?)
  {
  }

  /** An identity built without a whitelist signs nothing but `read_state` requests. */
  lemma NoWhitelistSignsOnlyReadState(lib: Library, hex: string, request: HttpAgentRequest, signature: Option<Bytes>)
    requires !IsReadState(request.body)
    ensures TransformRequest(lib, NewIdentity(lib, hex, None), request, signature).signCalls == []
    ensures TransformRequest(lib, NewIdentity(lib, hex, None), request, signature).result.Failure?
  {
  }

  /**
   * `sign` forwards a body whose sender and canister id are principals: both as principal
   * text, with its method name, request type and argument bytes.
   */
  lemma SignForwardsPrincipals(lib: Library, body: Body, sender: Bytes, canister: Bytes)
    ensures Lookup(body, "sender") == PrincipalValue(sender) && Lookup(body, "canister_id") == PrincipalValue(canister) ==>
      && SignInfoOf(lib, body).Success?
      && SignInfoOf(lib, body).value.sender == Some(lib.principalText(sender))
      && SignInfoOf(lib, body).value.canisterId == Some(lib.principalText(canister))
      && SignInfoOf(lib, body).value.methodName == StringOf(Lookup(body, "method_name"))
      && SignInfoOf(lib, body).value.requestType == StringOf(Lookup(body, "request_type"))
  {
  }

  /** Every signed payload is the 11-byte separator followed by the 32-byte request id. */
  lemma SignedPayloadLayout(lib: Library, id: PlugIdentity, request: HttpAgentRequest, signature: Option<Bytes>)
    ensures forall c :: c in TransformRequest(lib, id, request, signature).signCalls ==>
      && RequestId.RequestIdOf(lib.sha256, request.body).Success?
      && |c.payload| == 43
      && c.payload[..11] == [0x0A, 0x69, 0x63, 0x2D, 0x72, 0x65, 0x71, 0x75, 0x65, 0x73, 0x74]
      && c.payload[11..] == RequestId.RequestIdOf(lib.sha256, request.body).value
  {
    DomainSeparatorBytes();
    var t := TransformRequest(lib, id, request, signature);
    if |t.signCalls| == 1 {
      assert t.signCalls[0].payload == DomainSeparator + RequestId.RequestIdOf(lib.sha256, request.body).value;
    }
  }
}

=== FILE: js_value.dfy ===
/**
 * The JavaScript values that cross the bridge: request-body fields, call arguments, callback
 * results.  Only the distinctions the core's branches look at are kept.
 */
module JsValue {
  import opened Bytes
  import opened Wrappers

  datatype JsValue =
    | Undefined
    | Null
    | Bool(b: bool)
    /** An integral `number` (floating point is not modelled). */
    | Number(n: int)
    | BigInt(i: int)
    | Str(s: string)
    /** An `ArrayBuffer` or a typed-array view over bytes. */
    | Buffer(bytes: Bytes)
    | Array(items: seq<JsValue>)
    /** A CBOR `borc.Tagged` wrapper. */
    | Tagged(tag: nat, inner: JsValue)
    /**
     * Any other object: `principal` holds the raw bytes when it is a principal
     * (`_isPrincipal`), `toHash` the result of its `toHash()` method when it has one, and
     * `fields` its own enumerable properties.
     */
    | Object(principal: Option<Bytes>, toHash: Option<JsValue>, fields: seq<(string, JsValue)>)

  /** A principal object with the given raw bytes. */
  function PrincipalValue(raw: Bytes): JsValue {
    Object(Some(raw), None, [])
  }

  /** JavaScript truthiness (`if (v)`), for the value kinds above. */
  predicate Truthy(v: JsValue) {
    match v
    case Undefined => false
    case Null => false
    case Bool(b) => b
    case Number(n) => n != 0
    case BigInt(i) => i != 0
    case Str(s) => s != ""
    case _ => true
  }

  /** `obj[key]` on a record given by its entries: the entry's value, or `undefined`. */
  function Lookup(entries: seq<(string, JsValue)>, key: string): (v: JsValue)
    ensures v != Undefined ==> exists i :: 0 <= i < |entries| && entries[i] == (key, v)
    ensures (forall i :: 0 <= i < |entries| ==> entries[i].0 != key) ==> v == Undefined
    decreases |entries|
  {
    if |entries| == 0 then Undefined
    else if entries[0].0 == key then entries[0].1
    else Lookup(entries[1..], key)
  }
}

=== FILE: key_sort.dfy ===
/**
 * The sort step of `requestIdOf`: (hashed key, hashed value) pairs ordered by `compare` on the
 * hashed key.  The model sorts by insertion; it is not shown to agree with JavaScript's
 * `Array.prototype.sort` when two hashed keys are equal, and with distinct keys any correct sort
 * gives the same order (`SortedUnique`).
 */
module KeySort {
  import opened Bytes
  import opened ByteOrder

  type Pair = (Bytes, Bytes)

  ghost predicate Sorted(ps: seq<Pair>) {
    forall i, j :: 0 <= i < j < |ps| ==> Compare(ps[i].0, ps[j].0) <= 0
  }

  ghost predicate DistinctKeys(ps: seq<Pair>) {
    forall i, j :: 0 <= i < j < |ps| ==> ps[i].0 != ps[j].0
  }

  /** Every pair of a multiset sits at or above `p` in the key order. */
  ghost predicate AllAbove(p: Pair, m: multiset<Pair>) {
    forall q :: q in m ==> Compare(p.0, q.0) <= 0
  }

  lemma SortedHead(ps: seq<Pair>)
    requires Sorted(ps) && |ps| > 0
    ensures AllAbove(ps[0], multiset(ps[1..]))
    ensures Sorted(ps[1..])
  {
    forall q | q in multiset(ps[1..])
      ensures Compare(ps[0].0, q.0) <= 0
    {
      var j :| 0 <= j < |ps[1..]| && ps[1..][j] == q;
      assert ps[j + 1] == q;
    }
  }

  lemma SortedCons(p: Pair, ps: seq<Pair>)
    requires Sorted(ps) && AllAbove(p, multiset(ps))
    ensures Sorted([p] + ps)
  {
    var r := [p] + ps;
    forall i, j | 0 <= i < j < |r|
      ensures Compare(r[i].0, r[j].0) <= 0
    {
      if i == 0 {
        assert r[j] == ps[j - 1];
        assert ps[j - 1] in multiset(ps);
      } else {
        assert r[i] == ps[i - 1] && r[j] == ps[j - 1];
      }
    }
  }

  /** No pair of the multiset has the key `k`. */
  ghost predicate KeyFresh(k: Bytes, m: multiset<Pair>) {
    forall q :: q in m ==> q.0 != k
  }

  lemma DistinctCons(p: Pair, ps: seq<Pair>)
    requires DistinctKeys(ps) && KeyFresh(p.0, multiset(ps))
    ensures DistinctKeys([p] + ps)
  {
    var r := [p] + ps;
    forall i, j | 0 <= i < j < |r|
      ensures r[i].0 != r[j].0
    {
      assert r[j] == ps[j - 1];
      if i == 0 {
        assert ps[j - 1] in multiset(ps);
      } else {
        assert r[i] == ps[i - 1];
      }
    }
  }

  lemma InsertFrontSorted(p: Pair, ps: seq<Pair>)
    requires Sorted(ps)
    requires |ps| == 0 || Compare(p.0, ps[0].0) <= 0
    ensures Sorted([p] + ps)
  {
    if |ps| > 0 {
      SortedHead(ps);
      forall q | q in multiset(ps)
        ensures Compare(p.0, q.0) <= 0
      {
        if q != ps[0] {
          assert ps == [ps[0]] + ps[1..];
          assert q in multiset(ps[1..]);
          CompareTransitive(p.0, ps[0].0, q.0);
        }
      }
    }
    SortedCons(p, ps);
  }

  lemma InsertStepSorted(p: Pair, ps: seq<Pair>, rest: seq<Pair>)
    requires Sorted(ps) && |ps| > 0 && Compare(p.0, ps[0].0) > 0
    requires Sorted(rest) && multiset(rest) == multiset(ps[1..]) + multiset{p}
    ensures Sorted([ps[0]] + rest)
  {
    SortedHead(ps);
    CompareSwap(p.0, ps[0].0);
    SortedCons(ps[0], rest);
  }

  lemma InsertStepDistinct(p: Pair, ps: seq<Pair>, rest: seq<Pair>)
    requires DistinctKeys(ps) && KeyFresh(p.0, multiset(ps)) && |ps| > 0
    requires DistinctKeys(rest) && multiset(rest) == multiset(ps[1..]) + multiset{p}
    ensures DistinctKeys([ps[0]] + rest)
  {
    assert ps[0] in multiset(ps);
    forall q | q in multiset(rest)
      ensures q.0 != ps[0].0
    {
      if q != p {
        assert q in multiset(ps[1..]);
        var k :| 0 <= k < |ps[1..]| && ps[1..][k] == q;
        assert ps[k + 1] == q;
      }
    }
    DistinctCons(ps[0], rest);
  }

  lemma FreshTail(k: Bytes, ps: seq<Pair>)
    requires KeyFresh(k, multiset(ps)) && |ps| > 0
    ensures KeyFresh(k, multiset(ps[1..]))
  {
    assert ps == [ps[0]] + ps[1..];
  }

  /** Insert `p` before the first pair whose key is not below it. */
  function Insert(p: Pair, ps: seq<Pair>): (r: seq<Pair>)
    ensures multiset(r) == multiset(ps) + multiset{p}
    ensures Sorted(ps) ==> Sorted(r)
    ensures DistinctKeys(ps) && KeyFresh(p.0, multiset(ps)) ==> DistinctKeys(r)
    decreases |ps|
  {
    if |ps| == 0 || Compare(p.0, ps[0].0) <= 0 then
      var r := [p] + ps;
      assert Sorted(ps) ==> Sorted(r) by {
        if Sorted(ps) {
          InsertFrontSorted(p, ps);
        }
      }
      assert DistinctKeys(ps) && KeyFresh(p.0, multiset(ps)) ==> DistinctKeys(r) by {
        if DistinctKeys(ps) && KeyFresh(p.0, multiset(ps)) {
          DistinctCons(p, ps);
        }
      }
      r
    else
      var rest := Insert(p, ps[1..]);
      var r := [ps[0]] + rest;
      assert ps == [ps[0]] + ps[1..];
      assert Sorted(ps) ==> Sorted(r) by {
        if Sorted(ps) {
          SortedHead(ps);
          InsertStepSorted(p, ps, rest);
        }
      }
      assert DistinctKeys(ps) && KeyFresh(p.0, multiset(ps)) ==> DistinctKeys(r) by {
        if DistinctKeys(ps) && KeyFresh(p.0, multiset(ps)) {
          DistinctTail(ps);
          FreshTail(p.0, ps);
          InsertStepDistinct(p, ps, rest);
        }
      }
      r
  }

  /** With distinct keys, the head's key occurs nowhere in a permutation of the tail. */
  lemma HeadFresh(ps: seq<Pair>, rest: seq<Pair>)
    requires DistinctKeys(ps) && |ps| > 0 && multiset(rest) == multiset(ps[1..])
    ensures DistinctKeys(ps[1..]) && KeyFresh(ps[0].0, multiset(rest))
  {
    DistinctTail(ps);
    forall q | q in multiset(rest)
      ensures q.0 != ps[0].0
    {
      var k :| 0 <= k < |ps[1..]| && ps[1..][k] == q;
      assert ps[k + 1] == q;
    }
  }

  /** Insertion sort: a permutation of its input, sorted by key, keeping keys distinct. */
  function Sort(ps: seq<Pair>): (r: seq<Pair>)
    ensures multiset(r) == multiset(ps)
    ensures Sorted(r)
    ensures DistinctKeys(ps) ==> DistinctKeys(r)
    decreases |ps|
  {
    if |ps| == 0 then []
    else
      assert ps == [ps[0]] + ps[1..];
      var rest := Sort(ps[1..]);
      assert DistinctKeys(ps) ==> DistinctKeys(ps[1..]) && KeyFresh(ps[0].0, multiset(rest)) by {
        if DistinctKeys(ps) {
          HeadFresh(ps, rest);
        }
      }
      Insert(ps[0], rest)
  }

  /** Distinct keys cannot compare equal-or-below in both directions. */
  lemma KeysAntisymmetric(a: Bytes, b: Bytes)
    requires Compare(a, b) <= 0 && Compare(b, a) <= 0
    ensures a == b
  {
    CompareSwap(a, b);
    CompareZeroIff(a, b);
  }

  /** The head of a sorted sequence is at or below every pair in it. */
  lemma HeadIsLeast(s: seq<Pair>, x: Pair)
    requires Sorted(s) && x in multiset(s)
    ensures |s| > 0 && Compare(s[0].0, x.0) <= 0
  {
    var i :| 0 <= i < |s| && s[i] == x;
    if i == 0 {
      CompareZeroIff(s[0].0, x.0);
    }
  }

  lemma HeadsEqual(s: seq<Pair>, t: seq<Pair>)
    requires Sorted(s) && Sorted(t) && |s| > 0
    requires multiset(s) == multiset(t)
    requires DistinctKeys(s)
    ensures |t| > 0 && s[0] == t[0]
  {
    assert s[0] in multiset(t);
    HeadIsLeast(t, s[0]);
    assert t[0] in multiset(s);
    HeadIsLeast(s, t[0]);
    KeysAntisymmetric(s[0].0, t[0].0);
    var j :| 0 <= j < |s| && s[j] == t[0];
    assert j == 0;
  }

  lemma TailsPermutation(s: seq<Pair>, t: seq<Pair>)
    requires |s| > 0 && |t| > 0 && s[0] == t[0]
    requires multiset(s) == multiset(t)
    ensures multiset(s[1..]) == multiset(t[1..])
  {
    assert s == [s[0]] + s[1..] && t == [t[0]] + t[1..];
    assert multiset(s[1..]) == multiset(s) - multiset{s[0]};
    assert multiset(t[1..]) == multiset(t) - multiset{t[0]};
  }

  lemma DistinctTail(s: seq<Pair>)
    requires DistinctKeys(s) && |s| > 0
    ensures DistinctKeys(s[1..])
  {
    forall i, j | 0 <= i < j < |s[1..]|
      ensures s[1..][i].0 != s[1..][j].0
    {
      assert s[1..][i] == s[i + 1] && s[1..][j] == s[j + 1];
    }
  }

  /** The heads agree and the tails meet the requirements of `SortedUnique` again. */
  lemma PeelHeads(s: seq<Pair>, t: seq<Pair>)
    requires Sorted(s) && Sorted(t) && |s| > 0
    requires multiset(s) == multiset(t)
    requires DistinctKeys(s)
    ensures |t| > 0 && s[0] == t[0]
    ensures Sorted(s[1..]) && Sorted(t[1..])
    ensures multiset(s[1..]) == multiset(t[1..])
    ensures DistinctKeys(s[1..])
  {
    HeadsEqual(s, t);
    TailsPermutation(s, t);
    SortedHead(s);
    SortedHead(t);
    DistinctTail(s);
  }

  /**
   * Sorted orders are unique: two sorted sequences holding the same pairs, with pairwise
   * distinct keys, are equal.  This is why the hash does not depend on entry order.
   */
  lemma {:induction false} SortedUnique(s: seq<Pair>, t: seq<Pair>)
    requires Sorted(s) && Sorted(t)
    requires multiset(s) == multiset(t)
    requires DistinctKeys(s)
    ensures s == t
    decreases |s|
  {
    assert |s| == |multiset(s)| == |multiset(t)| == |t|;
    if |s| > 0 {
      PeelHeads(s, t);
      SortedUnique(s[1..], t[1..]);
      assert s == [s[0]] + s[1..] && t == [t[0]] + t[1..];
    }
  }
}

=== FILE: protocol.dfy ===
/**
 * What crosses the transport: the closed vocabulary of handler requests the bridge sends to the
 * signer, each with its argument list, and the per-call configuration.  Binary payloads travel
 * as base64 text.
 */
module Protocol {
  import opened Wrappers
  import opened Bytes
  import opened JsValue

  /** What the page reports about itself (src/utils/domain-metadata is not part of this model). */
  datatype Metadata = Metadata(url: string, rest: seq<(string, JsValue)>)

  /** `{timeout, target}` of a transport call; a timeout of 0 means no deadline. */
  datatype Config = Config(timeout: int, target: string)

  const DefaultConfig: Config := Config(0, "")

  /** The metadata shown to the signer about a request (`SignInfo` / `AssuredSignInfo`). */
  datatype SignInfo = SignInfo(
    methodName: Option<string>,
    requestType: Option<string>,
    canisterId: Option<string>,
    sender: Option<string>,
    arguments: Option<Bytes>,
    decodedArguments: Option<seq<JsValue>>,
    manual: Option<bool>,
    preApprove: Option<bool>)

  const EmptySignInfo: SignInfo := SignInfo(None, None, None, None, None, None, None, None)

  /** The body of a `requestCall`. */
  datatype CallEnvelope = CallEnvelope(
    canisterId: string, methodName: string, arg: string, effectiveCanisterId: Option<string>)

  /** The extra `requestCall` arguments the batch-aware call proxy appends. */
  datatype BatchTag = BatchTag(batchTxId: string, decodedArgs: Option<seq<JsValue>>)

  datatype ErrorHandler = HandleTimeout | HandleError

  datatype Request =
    | RequestConnect(metadata: Metadata, whitelist: seq<string>, timeout: int)
    | VerifyWhitelist(metadata: Metadata, whitelist: seq<string>)
    | GetConnectionData(url: string)
    | RequestCall(metadata: Metadata, envelope: CallEnvelope, batch: Option<BatchTag>)
    | RequestQuery(canisterId: string, methodName: string, arg: string)
    | RequestReadState(canisterId: string, paths: seq<string>)
    | RequestSign(payload: Bytes, info: SignInfo)
    | BatchTransactions(metadata: Metadata, signInfo: seq<SignInfo>)
    | Disconnect(url: string)
    | GetPrincipal(url: string)
    | Handle(handler: ErrorHandler, metadata: Metadata, message: Option<string>)

  /** The handler name the transport dispatches on. */
  function HandlerName(r: Request): string {
    match r
    case RequestConnect(_, _, _) => "requestConnect"
    case VerifyWhitelist(_, _) => "verifyWhitelist"
    case GetConnectionData(_) => "getConnectionData"
    case RequestCall(_, _, _) => "requestCall"
    case RequestQuery(_, _, _) => "requestQuery"
    case RequestReadState(_, _) => "requestReadState"
    case RequestSign(_, _) => "requestSign"
    case BatchTransactions(_, _) => "batchTransactions"
    case Disconnect(_) => "disconnect"
    case GetPrincipal(_) => "getPrincipal"
    case Handle(HandleTimeout, _, _) => "handleTimeout"
    case Handle(HandleError, _, _) => "handleError"
  }

  /**
   * The positional argument list of the request, as the transport receives it.  A
   * `requestCall` always leads with the metadata and the envelope; the batch-aware proxy
   * appends `batchTxId` and the decoded arguments (`undefined` without an interface).
   */
  function Args(r: Request): (args: seq<JsValue>)
    ensures r.RequestCall? ==> |args| == (if r.batch.Some? then 4 else 2)
    ensures r.RequestCall? ==> args[..2] == [MetadataValue(r.metadata), EnvelopeValue(r.envelope)]
    ensures r.RequestCall? && r.batch.Some? ==>
      && args[2] == Str(r.batch.value.batchTxId)
      && (r.batch.value.decodedArgs.Some? <==> args[3].Array?)
      && (r.batch.value.decodedArgs.Some? ==> args[3] == Array(r.batch.value.decodedArgs.value))
      && (r.batch.value.decodedArgs.None? ==> args[3] == Undefined)
  {
    match r
    case RequestConnect(m, wl, t) => [MetadataValue(m), Strings(wl), Number(t)]
    case VerifyWhitelist(m, wl) => [MetadataValue(m), Strings(wl)]
    case GetConnectionData(url) => [Str(url)]
    case RequestCall(m, e, batch) =>
      var base := [MetadataValue(m), EnvelopeValue(e)];
      if batch.Some? then
        base + [Str(batch.value.batchTxId),
                if batch.value.decodedArgs.Some? then Array(batch.value.decodedArgs.value) else Undefined]
      else base
    case RequestQuery(c, name, arg) =>
      [Object(None, None, [("canisterId", Str(c)), ("methodName", Str(name)), ("arg", Str(arg))])]
    case RequestReadState(c, paths) =>
      [Object(None, None, [("canisterId", Str(c)), ("paths", Strings(paths))])]
    case RequestSign(payload, info) => [Buffer(payload), SignInfoValue(info)]
    case BatchTransactions(m, infos) => [MetadataValue(m), Array(seq(|infos|, i requires 0 <= i < |infos| => SignInfoValue(infos[i])))]
    case Disconnect(url) => [Str(url)]
    case GetPrincipal(url) => [Str(url)]
    case Handle(_, m, message) => [MetadataValue(m), OptString(message)]
  }

  function Strings(xs: seq<string>): JsValue {
    Array(seq(|xs|, i requires 0 <= i < |xs| => Str(xs[i])))
  }

  function OptString(o: Option<string>): JsValue {
    if o.Some? then Str(o.value) else Undefined
  }

  function MetadataValue(m: Metadata): JsValue {
    Object(None, None, [("url", Str(m.url))] + m.rest)
  }

  function EnvelopeValue(e: CallEnvelope): JsValue {
    Object(None, None, [("canisterId", Str(e.canisterId)), ("methodName", Str(e.methodName)),
                        ("arg", Str(e.arg)), ("effectiveCanisterId", OptString(e.effectiveCanisterId))])
  }

  function SignInfoValue(s: SignInfo): JsValue {
    Object(None, None, [
      ("methodName", OptString(s.methodName)),
      ("requestType", OptString(s.requestType)),
      ("canisterId", OptString(s.canisterId)),
      ("sender", OptString(s.sender)),
      ("arguments", if s.arguments.Some? then Buffer(s.arguments.value) else Undefined),
      ("decodedArguments", if s.decodedArguments.Some? then Array(s.decodedArguments.value) else Undefined),
      ("manual", if s.manual.Some? then Bool(s.manual.value) else Undefined),
      ("preApprove", if s.preApprove.Some? then Bool(s.preApprove.value) else Undefined)])
  }

  /** One message handed to the transport. */
  datatype Dispatch = Dispatch(request: Request, config: Config)
}

=== FILE: provider.dfy ===
/**
 * The `Provider` of src/Provider/index.ts: the state a dapp's `window.ic.plug` object keeps
 * (agent, principal, account id, the argument types of every actor it created) and the methods
 * that change it, each a transition given the signer's replies.
 */
module Provider {
  import opened Wrappers
  import opened Bytes
  import opened JsValue
  import opened Foreign
  import opened Protocol
  import opened Transactions
  import Rpc
  import Identity
  import Sign
  import Agent
  import Batch
  import Seqs

  datatype Provider = Provider(
    transport: Rpc.Transport,
    agent: Option<Agent.PlugAgent>,
    principal: Option<string>,
    accountId: Option<string>,
    idls: Sign.ArgsTypesOfCanister)

  /** The `{timeout: 0, target: ""}` every provider call passes. */
  const ProviderConfig: Config := Config(0, "")

  datatype ProviderError =
    /** A transport rejection with a null error: `callClientRPC`'s failure handler throws. */
    | NullRejection
    /** No public key came back for the agent. */
    | NoPublicKey
    /** The principal reply was empty, or answered by an error handler, so `Principal.from` throws. */
    | NoPrincipal
    /** "Oops! Agent initialization required." */
    | AgentRequired
    /** An `onFail` callback threw inside the batch's catch block. */
    | CallbackThrew(error: JsValue)

  const AgentRequiredMessage: string := "Oops! Agent initialization required."

  /** `new Provider(clientRPC)`: starts the transport; nothing is connected. */
  function NewProvider(t: Rpc.Transport): (p: Provider)
    ensures p.transport.starts == t.starts + 1
    ensures p.agent.None? && p.principal.None? && p.idls == map[]
  {
    Provider(Rpc.Transport(t.starts + 1), None, None, None, map[])
  }

  /** `getPrincipal({asString})`: the principal as text or as a `Principal` built from it. */
  datatype PrincipalAnswer = AsText(text: string) | AsPrincipal(text: string)

  /**
   * `getPrincipal({asString})`: the stored principal when there is one, otherwise the signer's
   * `getPrincipal` answer; `Principal.from("")` throws, as does `Principal.from(undefined)`.
   */
  function GetPrincipal(p: Provider, metadata: Metadata, asString: bool, reply: Rpc.Reply<string>)
    : (r: (seq<Dispatch>, Result<PrincipalAnswer, ProviderError>))
    ensures p.principal.Some? && p.principal.value != "" ==>
      r == ([], Success(if asString then AsText(p.principal.value) else AsPrincipal(p.principal.value)))
    ensures !(p.principal.Some? && p.principal.value != "") ==>
      |r.0| >= 1 && r.0[0] == Dispatch(Request.GetPrincipal(metadata.url), ProviderConfig)
    ensures !(p.principal.Some? && p.principal.value != "") ==>
      (r.1.Success? <==> reply.Resolved? && reply.value != "")
    ensures !(p.principal.Some? && p.principal.value != "") && r.1.Success? ==>
      r.1.value.text == reply.value && (r.1.value.AsText? <==> asString)
    ensures !(p.principal.Some? && p.principal.value != "") && reply.Rejected? ==>
      r.1 == Failure(if reply.reason == Rpc.NullError then NullRejection else NoPrincipal)
    ensures !(p.principal.Some? && p.principal.value != "") && reply == Rpc.Resolved("") ==>
      r.1 == Failure(NoPrincipal)
  {
    if p.principal.Some? && p.principal.value != "" then
      ([], Success(if asString then AsText(p.principal.value) else AsPrincipal(p.principal.value)))
    else
      var (trace, answer) := Rpc.ClientCall(metadata, Request.GetPrincipal(metadata.url), ProviderConfig, reply);
      match answer
      case Failure(_) => (trace, Failure(NullRejection))
      case Success(Routed(_, _)) => (trace, Failure(NoPrincipal))
      case Success(Answered(text)) =>
        if text == "" then (trace, Failure(NoPrincipal))
        else (trace, Success(if asString then AsText(text) else AsPrincipal(text)))
  }

  /**
   * A stored principal is answered exactly as the signer's answer with the same text would be,
   * only without the round trip.
   */
  lemma StoredAgreesWithSigner(p: Provider, metadata: Metadata, asString: bool, text: string, reply: Rpc.Reply<string>)
    requires text != ""
    ensures GetPrincipal(p.(principal := Some(text)), metadata, asString, reply).1
         == GetPrincipal(p.(principal := None), metadata, asString, Rpc.Resolved(text)).1
    ensures GetPrincipal(p.(principal := Some(text)), metadata, asString, reply).0 == []
    ensures GetPrincipal(p.(principal := None), metadata, asString, Rpc.Resolved(text)).0
         == [Dispatch(Request.GetPrincipal(metadata.url), ProviderConfig)]
  {
  }

  /** Once a principal is stored, asking for it never reaches the transport. */
  lemma CachedPrincipalNoRpc(p: Provider, metadata: Metadata, asString: bool, reply: Rpc.Reply<string>)
    requires p.principal.Some? && p.principal.value != ""
    ensures GetPrincipal(p, metadata, asString, reply).0 == []
    ensures GetPrincipal(p, metadata, asString, reply).1.Success?
  {
  }

  /** A transition of the provider: the dispatches made, the provider afterwards, and the outcome. */
  datatype Step<T> = Step(trace: seq<Dispatch>, provider: Provider, result: Result<T, ProviderError>)

  /** The agent's principal and account id stored on the provider. */
  function AdoptAgent(lib: Library, p: Provider, agent: Agent.PlugAgent): (q: Provider)
    ensures q.agent.Some? && q.agent.value.identity.rawKey == agent.identity.rawKey
    ensures q.agent.value.identity.whitelist == agent.identity.whitelist
    ensures q.principal == Some(lib.principalText(Identity.GetPrincipal(lib, agent.identity).0))
    ensures q.accountId == Some(lib.accountId(Identity.GetPrincipal(lib, agent.identity).0))
    ensures q.idls == p.idls && q.transport == p.transport
  {
    var (principal, identity) := Identity.GetPrincipal(lib, agent.identity);
    p.(agent := Some(agent.(identity := identity)), principal := Some(lib.principalText(principal)),
       accountId := Some(lib.accountId(principal)))
  }

  /** The self-authenticating principal of the hex public key the signer returned. */
  function ConnectedPrincipal(lib: Library, hexKey: string): Bytes {
    lib.selfAuthenticating(lib.secp256k1Der(lib.hexToBytes(hexKey)))
  }

  /** `RequestConnectParams`: every field optional. */
  datatype ConnectParams = ConnectParams(whitelist: Option<seq<string>>, host: Option<string>, timeout: Option<int>)

  /**
   * `requestConnect(args)`: `requestConnect` with the whitelist (default `[]`) and timeout
   * (default 120000), then a new agent for that whitelist and host; it returns the public key
   * the connect call answered (undefined when an error handler answered it).
   */
  function RequestConnect(lib: Library, p: Provider, metadata: Metadata, args: ConnectParams,
                          connectReply: Rpc.Reply<string>, keyReply: Rpc.Reply<string>)
    : (s: Step<JsValue>)
    ensures var wl := args.whitelist.GetOr([]);
      |s.trace| >= 1 && s.trace[0] == Dispatch(Request.RequestConnect(metadata, wl, args.timeout.GetOr(120000)), ProviderConfig)
    ensures connectReply == Rpc.Rejected(Rpc.NullError) ==> s.result == Failure(NullRejection) && s.provider == p
    ensures s.result.Success? <==> connectReply != Rpc.Rejected(Rpc.NullError) && keyReply.Resolved?
    ensures s.result.Success? ==>
      && s.result.value == (if connectReply.Resolved? then Str(connectReply.value) else Undefined)
      && s.provider.agent.Some?
      && s.provider.agent.value.identity.whitelist == args.whitelist.GetOr([])
      && s.provider.agent.value.host == args.host.GetOr(Agent.DefaultHost)
      && s.provider.principal.Some?
    ensures s.result.Success? ==>
      var pr := ConnectedPrincipal(lib, keyReply.value);
      s.provider.principal == Some(lib.principalText(pr)) && s.provider.accountId == Some(lib.accountId(pr))
    ensures s.result.Failure? ==> s.provider == p
  {
    var wl := args.whitelist.GetOr([]);
    var (trace, connected) := Rpc.ClientCall(metadata, Request.RequestConnect(metadata, wl, args.timeout.GetOr(120000)),
                                             ProviderConfig, connectReply);
    match connected
    case Failure(_) => Step(trace, p, Failure(NullRejection))
    case Success(answer) =>
      var publicKey := if answer.Answered? then Str(answer.value) else Undefined;
      var (trace2, created) := Agent.CreateAgent(lib, metadata, Some(wl), args.host, p.idls, None, keyReply);
      match created
      case Failure(_) => Step(trace + trace2, p, Failure(NoPublicKey))
      case Success(agent) => Step(trace + trace2, AdoptAgent(lib, p, agent), Success(publicKey))
  }

  /**
   * After a successful `requestConnect`, `getPrincipal` answers from the stored principal: no
   * dispatch, and the text of the new agent's principal.
   */
  lemma ConnectThenGetPrincipal(lib: Library, p: Provider, metadata: Metadata, args: ConnectParams,
                                connectReply: Rpc.Reply<string>, key: string, asString: bool,
                                reply: Rpc.Reply<string>)
    requires connectReply != Rpc.Rejected(Rpc.NullError)
    requires lib.principalText(ConnectedPrincipal(lib, key)) != ""
    ensures var s := RequestConnect(lib, p, metadata, args, connectReply, Rpc.Resolved(key));
      var text := lib.principalText(ConnectedPrincipal(lib, key));
      GetPrincipal(s.provider, metadata, asString, reply) == ([], Success(if asString then AsText(text) else AsPrincipal(text)))
  {
  }

  /**
   * `createActor({canisterId, interfaceFactory})`: records the service's argument types and,
   * only when there is no agent yet, creates one for that canister.  The agent's sign callback
   * holds the provider's own `idls` object, so a recorded service is visible to it at once.
   */
  function CreateActor(lib: Library, p: Provider, metadata: Metadata, canisterId: string, service: Service,
                       keyReply: Rpc.Reply<string>)
    : (s: Step<()>)
    ensures s.provider.idls == p.idls[canisterId := Sign.GetArgTypes(service)]
    ensures p.agent.Some? ==>
      && s.trace == [] && s.result.Success? && s.provider.agent.Some?
      && s.provider.agent.value == p.agent.value.(idls := s.provider.idls)
    ensures p.agent.None? ==>
      && |s.trace| >= 1 && s.trace[0] == Dispatch(VerifyWhitelist(metadata, [canisterId]), DefaultConfig)
      && (s.result.Success? <==> keyReply.Resolved?)
      && (s.result.Success? ==> s.provider.agent.Some? && s.provider.agent.value.identity.whitelist == [canisterId])
  {
    var idls := p.idls[canisterId := Sign.GetArgTypes(service)];
    match p.agent
    case Some(agent) => Step([], p.(idls := idls, agent := Some(agent.(idls := idls))), Success(()))
    case None =>
      var (trace, created) := Agent.CreateAgent(lib, metadata, Some([canisterId]), None, idls, None, keyReply);
      match created
      case Failure(_) => Step(trace, p.(idls := idls), Failure(NoPublicKey))
      case Success(agent) => Step(trace, p.(idls := idls, agent := Some(agent)), Success(()))
  }

  /** `deleteAgent()`. */
  function DeleteAgent(p: Provider): (q: Provider)
    ensures q.agent.None?
    ensures q == p.(agent := None)
  {
    p.(agent := None)
  }

  /** `getManagementCanister()`: refused without an agent; otherwise an actor over the agent. */
  function GetManagementCanister(p: Provider): (r: Result<Agent.PlugAgent, ProviderError>)
    ensures r.Failure? <==> p.agent.None?
    ensures r.Success? ==> r.value == p.agent.value
  {
    match p.agent
    case None => Failure(AgentRequired)
    case Some(a) => Success(a)
  }

  /** After `deleteAgent()`, the management canister needs a new agent. */
  lemma DeletedAgentRequired(p: Provider)
    ensures GetManagementCanister(DeleteAgent(p)) == Failure(AgentRequired)
  {
  }

  /** `transactions.map(t => t.canisterId)`. */
  function CanisterList(txs: seq<Transaction>): (r: seq<string>)
    ensures |r| == |txs| && forall i :: 0 <= i < |txs| ==> r[i] == txs[i].canisterId
  {
    Seqs.Map((t: Transaction) => t.canisterId, txs)
  }

  /** The batch's sign info for one transaction, after `recursiveParseBigint`. */
  function BatchSignInfo(lib: Library, tx: Transaction, sender: string): (r: SignInfo)
    ensures r.requestType == Some("unknown") && r.preApprove == Some(false) && r.sender == Some(sender)
    ensures r.canisterId == Some(tx.canisterId) && r.methodName == Some(tx.methodName)
    ensures r.arguments == Sign.GetSignInfoFromTransaction(lib, tx, sender).arguments
    ensures r.decodedArguments == (if tx.args.ArgsList? then Some(lib.parseBigint(tx.args.items)) else None)
    ensures r.manual.None?
  {
    var info := Sign.GetSignInfoFromTransaction(lib, tx, sender);
    info.(decodedArguments := if info.decodedArguments.Some? then Some(lib.parseBigint(info.decodedArguments.value)) else None)
  }

  /** What `batchTransactions` did: the dispatches, the callbacks' events, and its outcome. */
  datatype BatchResult = BatchResult(trace: seq<Dispatch>, run: Option<Batch.BatchRun>, result: Result<bool, ProviderError>)

  /**
   * `batchTransactions(transactions)`: an agent whose whitelist lists every transaction's
   * canister, signing with `preApprove`; one `batchTransactions` approval; then the loop.
   * `keyReply` answers the agent's `verifyWhitelist`, `acceptReply` the approval.
   */
  function BatchTransactions(lib: Library, p: Provider, metadata: Metadata, txs: seq<Transaction>,
                             keyReply: Rpc.Reply<string>, acceptReply: Rpc.Reply<JsValue>)
    : (b: BatchResult)
    ensures |b.trace| >= 1 && b.trace[0] == Dispatch(VerifyWhitelist(metadata, CanisterList(txs)), DefaultConfig)
    ensures b.run.Some? <==>
      keyReply.Resolved? && acceptReply.Resolved? && Truthy(acceptReply.value)
    ensures b.run.Some? ==> b.run.value == Batch.Run(txs, 0, [])
    ensures keyReply.Resolved? && acceptReply != Rpc.Rejected(Rpc.NullError) && b.run.None? ==> b.result == Success(false)
    ensures b.run.Some? ==>
      (b.result == Success(true) <==> !(|b.run.value.ends| > 0 && Batch.Last(b.run.value.ends).Abort?))
    ensures b.run.Some? ==> b.result.Success? || b.result.error.CallbackThrew?
  {
    var (trace, created) := Agent.CreateAgent(lib, metadata, Some(CanisterList(txs)), None, p.idls, Some(true), keyReply);
    match created
    case Failure(_) => BatchResult(trace, None, Failure(NoPublicKey))
    case Success(agent) =>
      var sender := lib.principalText(Identity.GetPrincipal(lib, agent.identity).0);
      var infos := Seqs.Map((t: Transaction) => BatchSignInfo(lib, t, sender), txs);
      var (trace2, accepted) := Rpc.ClientCall(metadata, Request.BatchTransactions(metadata, infos), ProviderConfig, acceptReply);
      match accepted
      case Failure(_) => BatchResult(trace + trace2, None, Failure(NullRejection))
      case Success(Routed(_, _)) => BatchResult(trace + trace2, None, Success(false))
      case Success(Answered(v)) =>
        if !Truthy(v) then BatchResult(trace + trace2, None, Success(false))
        else
          var run := Batch.Run(txs, 0, []);
          if |run.ends| > 0 && Batch.Last(run.ends).Abort? then
            BatchResult(trace + trace2, Some(run), Failure(CallbackThrew(Batch.Last(run.ends).error)))
          else BatchResult(trace + trace2, Some(run), Success(true))
  }

  /** The agent `batchTransactions` creates admits a call to any of the batch's canisters. */
  lemma BatchAgentAdmitsBatch(lib: Library, p: Provider, metadata: Metadata, txs: seq<Transaction>, key: string,
                              i: nat, body: Identity.Body)
    requires i < |txs|
    requires Identity.CanisterOf(body).Some? && lib.principalText(Identity.CanisterOf(body).value) == txs[i].canisterId
    ensures var agent := Agent.CreateAgent(lib, metadata, Some(CanisterList(txs)), None, p.idls, Some(true), Rpc.Resolved(key)).1.value;
      Identity.Gate(lib, agent.identity.whitelist, body).Success? && agent.preApprove
  {
    assert CanisterList(txs)[i] == txs[i].canisterId;
  }

  /** The approval's sign info has one entry per transaction, in order, none pre-approved. */
  lemma BatchSignInfoInOrder(lib: Library, p: Provider, metadata: Metadata, txs: seq<Transaction>, key: string,
                             acceptReply: Rpc.Reply<JsValue>)
    ensures var b := BatchTransactions(lib, p, metadata, txs, Rpc.Resolved(key), acceptReply);
      |b.trace| >= 2 && b.trace[1].request.BatchTransactions? &&
      var infos := b.trace[1].request.signInfo;
      |infos| == |txs| && forall i :: 0 <= i < |txs| ==>
        infos[i].canisterId == Some(txs[i].canisterId) && infos[i].preApprove == Some(false)
  {
  }

  /**
   * Once the batch is accepted, the transactions run in order until the first one that does
   * not complete, which is the last to start; no event belongs to a later one; and the result
   * is `true` unless that last transaction's `onFail` threw, which rejects the batch.
   */
  lemma BatchHaltsOnFirstFailure(lib: Library, p: Provider, metadata: Metadata, txs: seq<Transaction>, key: string,
                                 accepted: JsValue)
    requires Truthy(accepted)
    ensures var b := BatchTransactions(lib, p, metadata, txs, Rpc.Resolved(key), Rpc.Resolved(accepted));
      && b.run.Some?
      && Batch.StopsAtFirstFailure(txs, b.run.value)
      && var n := |b.run.value.ends|;
      && (b.result == Success(true) <==> !(n > 0 && Batch.Rejects(txs[n - 1], Batch.ChainAt(txs, 0, [], n - 1))))
      && (b.result.Failure? ==> b.result.error.CallbackThrew?)
  {
    var b := BatchTransactions(lib, p, metadata, txs, Rpc.Resolved(key), Rpc.Resolved(accepted));
    var run := b.run.value;
    Batch.FirstFailure(txs, run);
    if |run.ends| > 0 {
      assert Batch.Last(run.ends) == run.ends[|run.ends| - 1];
    }
  }
}

=== FILE: request_id.dfy ===
/**
 * The request id of src/utils/request_id.ts: the representation-independent "hash of map" of
 * the Internet Computer interface specification.  Undefined fields are dropped, every key and
 * value is hashed, the pairs are sorted by hashed key and the concatenation is hashed once more.
 */
module RequestId {
  import opened Wrappers
  import opened Bytes
  import opened JsValue
  import opened Foreign
  import Utf8
  import Leb128
  import KeySort
  import Seqs

  datatype HashError =
    /** "Attempt to hash a value of unsupported type", carrying the value. */
    | Unsupported(value: JsValue)
    /** `lebEncode` of the Candid library rejects negative numbers. */
    | NegativeLeb(n: int)

  type Entry = (string, JsValue)

  /** The values `hashValue` accepts, defined by kind rather than by the hashing code. */
  ghost predicate Hashable(v: JsValue)
    decreases v
  {
    match v
    case Tagged(_, inner) => Hashable(inner)
    case Str(_) => true
    case Number(n) => n >= 0
    case BigInt(i) => i >= 0
    case Buffer(_) => true
    case Array(items) => forall i :: 0 <= i < |items| ==> Hashable(items[i])
    case Object(principal, toHash, _) =>
      principal.Some? || (toHash.Some? && Hashable(toHash.value))
    case _ => false
  }

  /** `hashString`: SHA-256 of the UTF-8 bytes; an ASCII key hashes its code points, one byte each. */
  function HashString(sha: Sha256, s: string): (r: Digest)
    ensures (forall i :: 0 <= i < |s| ==> s[i] as int < 0x80) ==>
      r == sha(seq(|s|, i requires 0 <= i < |s| => s[i] as int as byte))
  {
    if forall i :: 0 <= i < |s| ==> s[i] as int < 0x80 then
      Utf8.EncodeAsciiAs(s, seq(|s|, i requires 0 <= i < |s| => s[i] as int as byte));
      sha(Utf8.Encode(s))
    else sha(Utf8.Encode(s))
  }

  /** The hash of a number or bigint: SHA-256 of its unsigned LEB128 encoding. */
  function HashNumber(sha: Sha256, n: int): Result<Digest, HashError> {
    if n < 0 then Failure(NegativeLeb(n)) else Success(sha(Leb128.Encode(n)))
  }

  /** `hashValue`, with the source's dispatch order. */
  function HashValue(sha: Sha256, v: JsValue): (r: Result<Digest, HashError>)
    ensures r.Success? <==> Hashable(v)
    decreases v, 1
  {
    match v
    case Tagged(_, inner) => HashValue(sha, inner)
    case Str(s) => Success(HashString(sha, s))
    case Number(n) => HashNumber(sha, n)
    case Buffer(b) => Success(sha(b))
    case Array(items) =>
      (match HashItems(sha, items)
       case Success(hs) => Success(sha(Flatten(hs)))
       case Failure(e) => Failure(e))
    case Object(principal, toHash, _) =>
      if principal.Some? then Success(sha(principal.value))
      else if toHash.Some? then HashValue(sha, toHash.value)
      else Failure(Unsupported(v))
    case BigInt(i) => HashNumber(sha, i)
    case _ => Failure(Unsupported(v))
  }

  /** `value.map(hashValue)`: the element hashes in order, or the first failure. */
  function HashItems(sha: Sha256, items: seq<JsValue>): (r: Result<seq<Digest>, HashError>)
    ensures r.Success? <==> forall i :: 0 <= i < |items| ==> Hashable(items[i])
    ensures r.Success? ==> |r.value| == |items|
    decreases items, 0
  {
    if |items| == 0 then Success([])
    else
      match HashValue(sha, items[0])
      case Failure(e) => Failure(e)
      case Success(h) =>
        match HashItems(sha, items[1..])
        case Failure(e) => Failure(e)
        case Success(hs) =>
          assert forall i :: 1 <= i < |items| ==> items[i] == items[1..][i - 1];
          Success([h] + hs)
  }

  /** The entries whose value is not `undefined`, in order. */
  function Defined(entries: seq<Entry>): (r: seq<Entry>)
    ensures forall i :: 0 <= i < |r| ==> !r[i].1.Undefined?
    decreases |entries|
  {
    if |entries| == 0 then []
    else if entries[0].1.Undefined? then Defined(entries[1..])
    else [entries[0]] + Defined(entries[1..])
  }

  /** The (hashed key, hashed value) pair of one entry whose value is hashable. */
  function EntryPair(sha: Sha256, e: Entry): KeySort.Pair {
    (HashString(sha, e.0), match HashValue(sha, e.1) case Success(h) => h case Failure(_) => [])
  }

  /** Hash every entry in order; the first unhashable value aborts. */
  function HashEntries(sha: Sha256, entries: seq<Entry>): (r: Result<seq<KeySort.Pair>, HashError>)
    ensures r.Success? <==> forall i :: 0 <= i < |entries| ==> Hashable(entries[i].1)
    ensures r.Success? ==> r.value == Seqs.Map(e => EntryPair(sha, e), entries)
    decreases |entries|
  {
    if |entries| == 0 then Success([])
    else
      match HashValue(sha, entries[0].1)
      case Failure(e) => Failure(e)
      case Success(hv) =>
        match HashEntries(sha, entries[1..])
        case Failure(e) => Failure(e)
        case Success(rest) =>
          assert forall i :: 1 <= i < |entries| ==> entries[i] == entries[1..][i - 1];
          Seqs.MapCons(e => EntryPair(sha, e), entries);
          Success([(HashString(sha, entries[0].0), hv)] + rest)
  }

  /** `concat(...sorted.map(x => concat(...x)))`: each key hash followed by its value hash. */
  function Joined(pairs: seq<KeySort.Pair>): Bytes {
    Flatten(Seqs.Map((p: KeySort.Pair) => p.0 + p.1, pairs))
  }

  /** `requestIdOf(request)`, the request given by its entries in `Object.entries` order. */
  function RequestIdOf(sha: Sha256, request: seq<Entry>): (r: Result<Digest, HashError>)
    ensures r.Success? <==> forall i :: 0 <= i < |Defined(request)| ==> Hashable(Defined(request)[i].1)
  {
    var defined := Defined(request);
    match HashEntries(sha, defined)
    case Failure(e) =>
      assert !(forall i :: 0 <= i < |defined| ==> Hashable(defined[i].1));
      Failure(e)
    case Success(hashed) => Success(sha(Joined(KeySort.Sort(hashed))))
  }
}

=== FILE: request_id_properties.dfy ===
/**
 * What the request id promises: how each kind of value is hashed, that lists hash their
 * elements in order, that `undefined` fields make no difference, and that the id does not
 * depend on the order of the entries when the hashed keys are distinct.
 */
module RequestIdProperties {
  import opened Wrappers
  import opened Bytes
  import opened JsValue
  import opened Foreign
  import opened RequestId
  import Utf8
  import Leb128
  import KeySort
  import Seqs

  /** Strings hash their UTF-8 bytes; numbers and bigints hash a LEB128 string that decodes back
      to them; buffers and principals hash their raw bytes. */
  lemma ScalarHashes(sha: Sha256, v: JsValue)
    ensures v.Str? ==> HashValue(sha, v) == Success(sha(Utf8.Encode(v.s)))
    ensures v.Number? && v.n >= 0 ==>
      exists b :: Leb128.WellFormed(b) && Leb128.Decode(b) == v.n && HashValue(sha, v) == Success(sha(b))
    ensures v.BigInt? && v.i >= 0 ==>
      exists b :: Leb128.WellFormed(b) && Leb128.Decode(b) == v.i && HashValue(sha, v) == Success(sha(b))
    ensures (v.Number? && v.n < 0) || (v.BigInt? && v.i < 0) ==> HashValue(sha, v).Failure?
    ensures v.Buffer? ==> HashValue(sha, v) == Success(sha(v.bytes))
    ensures v.Object? && v.principal.Some? ==> HashValue(sha, v) == Success(sha(v.principal.value))
  {
    if v.Number? && v.n >= 0 {
      Leb128.RoundTrip(v.n);
      assert HashValue(sha, v) == Success(sha(Leb128.Encode(v.n)));
    }
    if v.BigInt? && v.i >= 0 {
      Leb128.RoundTrip(v.i);
      assert HashValue(sha, v) == Success(sha(Leb128.Encode(v.i)));
    }
  }

  /** A `borc.Tagged` wrapper is transparent, and an object with `toHash` (and no principal
      marker) hashes as whatever `toHash()` returns. */
  lemma DelegatedHashes(sha: Sha256, tag: nat, inner: JsValue, fields: seq<(string, JsValue)>)
    ensures HashValue(sha, Tagged(tag, inner)) == HashValue(sha, inner)
    ensures HashValue(sha, Object(None, Some(inner), fields)) == HashValue(sha, inner)
  {
  }

  /** Booleans, null, undefined and plain objects (nested maps included) are rejected with the
      offending value. */
  lemma UnsupportedValues(sha: Sha256, v: JsValue)
    requires v.Undefined? || v.Null? || v.Bool? || (v.Object? && v.principal.None? && v.toHash.None?)
    ensures HashValue(sha, v) == Failure(Unsupported(v))
  {
  }

  lemma {:induction false} HashItemsInOrder(sha: Sha256, items: seq<JsValue>)
    requires forall i :: 0 <= i < |items| ==> Hashable(items[i])
    ensures forall i :: 0 <= i < |items| ==> HashValue(sha, items[i]) == Success(HashItems(sha, items).value[i])
    decreases |items|
  {
    if |items| > 0 {
      HashItemsInOrder(sha, items[1..]);
      forall i | 1 <= i < |items|
        ensures HashValue(sha, items[i]) == Success(HashItems(sha, items).value[i])
      {
        assert items[i] == items[1..][i - 1];
      }
    }
  }

  /** A list hashes to SHA-256 of its element hashes concatenated in list order. */
  lemma HashListInOrder(sha: Sha256, items: seq<JsValue>)
    requires forall i :: 0 <= i < |items| ==> Hashable(items[i])
    ensures exists hs: seq<Digest> ::
      |hs| == |items| &&
      (forall i :: 0 <= i < |items| ==> HashValue(sha, items[i]) == Success(hs[i])) &&
      HashValue(sha, Array(items)) == Success(sha(Flatten(hs)))
  {
    HashItemsInOrder(sha, items);
    var hs := HashItems(sha, items).value;
    assert HashValue(sha, Array(items)) == Success(sha(Flatten(hs)));
  }

  lemma {:induction false} DefinedSkipsUndefined(request: seq<Entry>, i: nat, key: string)
    requires i <= |request|
    ensures Defined(request[..i] + [(key, Undefined)] + request[i..]) == Defined(request)
    decreases i
  {
    var s := request[..i] + [(key, Undefined)] + request[i..];
    if i == 0 {
      assert s[1..] == request;
    } else {
      var tail := request[1..];
      assert s[0] == request[0];
      assert s[1..] == tail[..i - 1] + [(key, Undefined)] + tail[i - 1..];
      DefinedSkipsUndefined(tail, i - 1, key);
    }
  }

  /** Adding (or removing) a field whose value is `undefined`, anywhere, leaves the id unchanged. */
  lemma UndefinedFieldIgnored(sha: Sha256, request: seq<Entry>, i: nat, key: string)
    requires i <= |request|
    ensures RequestIdOf(sha, request[..i] + [(key, Undefined)] + request[i..]) == RequestIdOf(sha, request)
  {
    DefinedSkipsUndefined(request, i, key);
  }

  /** The hashed keys of the defined entries are pairwise distinct. */
  ghost predicate DistinctHashedKeys(sha: Sha256, request: seq<Entry>) {
    var d := Defined(request);
    forall i, j :: 0 <= i < j < |d| ==> HashString(sha, d[i].0) != HashString(sha, d[j].0)
  }

  lemma {:induction false} DefinedCount(xs: seq<Entry>, e: Entry)
    ensures multiset(Defined(xs))[e] == if e.1.Undefined? then 0 else multiset(xs)[e]
    decreases |xs|
  {
    if |xs| > 0 {
      var t := xs[1..];
      DefinedCount(t, e);
      assert xs == [xs[0]] + t;
      assert multiset(xs) == multiset{xs[0]} + multiset(t);
      if !xs[0].1.Undefined? {
        assert multiset(Defined(xs)) == multiset{xs[0]} + multiset(Defined(t));
      }
    }
  }

  lemma DefinedPermutation(xs: seq<Entry>, ys: seq<Entry>)
    requires multiset(xs) == multiset(ys)
    ensures multiset(Defined(xs)) == multiset(Defined(ys))
  {
    forall e
      ensures multiset(Defined(xs))[e] == multiset(Defined(ys))[e]
    {
      DefinedCount(xs, e);
      DefinedCount(ys, e);
    }
  }

  ghost predicate AllHashable(entries: seq<Entry>) {
    forall i :: 0 <= i < |entries| ==> Hashable(entries[i].1)
  }

  lemma HashablePermutation(xs: seq<Entry>, ys: seq<Entry>)
    requires multiset(xs) == multiset(ys) && AllHashable(xs)
    ensures AllHashable(ys)
  {
    forall j | 0 <= j < |ys|
      ensures Hashable(ys[j].1)
    {
      assert ys[j] in multiset(xs);
    }
  }

  /**
   * The id does not depend on the order of the request's entries, provided the hashed keys
   * are pairwise distinct: both orders are hashable or neither is, and when they are the ids
   * are equal.
   */
  lemma OrderIndependent(sha: Sha256, r1: seq<Entry>, r2: seq<Entry>)
    requires multiset(r1) == multiset(r2)
    requires DistinctHashedKeys(sha, r1)
    ensures RequestIdOf(sha, r1).Success? <==> RequestIdOf(sha, r2).Success?
    ensures RequestIdOf(sha, r1).Success? ==> RequestIdOf(sha, r1) == RequestIdOf(sha, r2)
  {
    var d1, d2 := Defined(r1), Defined(r2);
    DefinedPermutation(r1, r2);
    if AllHashable(d1) {
      HashablePermutation(d1, d2);
    }
    if AllHashable(d2) {
      HashablePermutation(d2, d1);
    }
    if AllHashable(d1) {
      var f := (e: Entry) => EntryPair(sha, e);
      var p1, p2 := Seqs.Map(f, d1), Seqs.Map(f, d2);
      Seqs.MapPermutation(f, d1, d2);
      assert KeySort.DistinctKeys(p1);
      var s1, s2 := KeySort.Sort(p1), KeySort.Sort(p2);
      KeySort.SortedUnique(s1, s2);
    }
  }
}

=== FILE: rpc.dfy ===
/**
 * `RPCManager` of src/modules/RPCManager/index.ts, and the equivalent `callClientRPC` of
 * src/Provider/index.ts: one transport call, and on failure one more call to the error handler
 * chosen by the failure's message.  The transport's reply is an input.
 */
module Rpc {
  import opened Wrappers
  import opened Protocol

  /** Why a transport call rejected: a null/undefined error, or an error whose `message` may be absent. */
  datatype Rejection = NullError | ErrorWith(message: Option<string>)

  /** The transport's reply to one call. */
  datatype Reply<T> = Resolved(value: T) | Rejected(reason: Rejection)

  /**
   * What the caller of `call` receives: the transport's value, or the fact that the failure was
   * handed to an error handler.  The error handler's own resolved value is what the caller then
   * sees; the model takes it to be `undefined`.
   */
  datatype Answer<T> = Answered(value: T) | Routed(handler: ErrorHandler, message: Option<string>)

  /** The transport, with the number of times its `start` hook has run. */
  datatype Transport = Transport(starts: nat)

  datatype RpcManager = RpcManager(transport: Transport)

  /** The constructor starts the transport, once. */
  function NewManager(t: Transport): (m: RpcManager)
    ensures m.transport.starts == t.starts + 1
  {
    RpcManager(Transport(t.starts + 1))
  }

  const TimeoutMessage: string := "Request Timeout"

  /** The error handler for a failure message: the timeout handler only for "Request Timeout". */
  function HandlerFor(message: Option<string>): (h: ErrorHandler)
    ensures h == HandleTimeout <==> message == Some(TimeoutMessage)
  {
    if message == Some(TimeoutMessage) then HandleTimeout else HandleError
  }

  /** `const { message } = error || {}`. */
  function MessageOf(r: Rejection): Option<string> {
    match r
    case NullError => None
    case ErrorWith(m) => m
  }

  /** `RPCManager.call({handler, args, config = DEFAULT_CONFIG})`. */
  function Call<T>(metadata: Metadata, request: Request, config: Option<Config>, reply: Reply<T>)
    : (r: (seq<Dispatch>, Answer<T>))
    ensures |r.0| >= 1 && r.0[0] == Dispatch(request, if config.Some? then config.value else DefaultConfig)
    ensures reply.Resolved? <==> |r.0| == 1
    ensures reply.Resolved? ==> r.1 == Answered(reply.value)
    ensures reply.Rejected? ==>
      var message := MessageOf(reply.reason);
      && r.1 == Routed(HandlerFor(message), message)
      && r.0 == [r.0[0], Dispatch(Handle(HandlerFor(message), metadata, message), DefaultConfig)]
  {
    var first := Dispatch(request, config.GetOr(DefaultConfig));
    match reply
    case Resolved(v) => ([first], Answered(v))
    case Rejected(reason) =>
      var message := MessageOf(reason);
      var handler := HandlerFor(message);
      ([first, Dispatch(Handle(handler, metadata, message), DefaultConfig)], Routed(handler, message))
  }

  /** The failure of `callClientRPC`'s own handler: reading `message` of a null error throws. */
  datatype ClientFailure = NullErrorDereferenced

  /**
   * `Provider.callClientRPC({handler, args, config})`: the same routing, except that a null
   * rejection makes the failure handler itself throw before any error handler is called.
   */
  function ClientCall<T>(metadata: Metadata, request: Request, config: Config, reply: Reply<T>)
    : (r: (seq<Dispatch>, Result<Answer<T>, ClientFailure>))
    ensures |r.0| >= 1 && r.0[0] == Dispatch(request, config)
    ensures reply == Rejected(NullError) <==> r.1.Failure?
    ensures reply.Rejected? && reply.reason.ErrorWith? ==>
      r.0 == [r.0[0], Dispatch(Handle(HandlerFor(reply.reason.message), metadata, reply.reason.message), DefaultConfig)]
    ensures reply.Resolved? ==> r == ([Dispatch(request, config)], Success(Answered(reply.value)))
  {
    match reply
    case Rejected(NullError) => ([Dispatch(request, config)], Failure(NullErrorDereferenced))
    case _ =>
      var (trace, answer) := Call(metadata, request, Some(config), reply);
      (trace, Success(answer))
  }
}

=== FILE: seqs.dfy ===
/** Sequence helpers: element-wise mapping and its interaction with permutations. */
module Seqs {

  /** `xs.map(f)`. */
  function Map<A, B>(f: A -> B, xs: seq<A>): (r: seq<B>)
    ensures |r| == |xs|
    ensures forall i :: 0 <= i < |xs| ==> r[i] == f(xs[i])
  {
    seq(|xs|, i requires 0 <= i < |xs| => f(xs[i]))
  }

  /** Mapping a non-empty sequence maps its head, then its tail. */
  lemma MapCons<A, B>(f: A -> B, xs: seq<A>)
    requires |xs| > 0
    ensures Map(f, xs) == [f(xs[0])] + Map(f, xs[1..])
  {
    assert forall i :: 1 <= i < |xs| ==> xs[i] == xs[1..][i - 1];
  }

  lemma MapAppend<A, B>(f: A -> B, xs: seq<A>, ys: seq<A>)
    ensures Map(f, xs + ys) == Map(f, xs) + Map(f, ys)
  {
  }

  /** Mapping two permutations of each other gives two permutations of each other. */
  lemma {:induction false} MapPermutation<A, B>(f: A -> B, xs: seq<A>, ys: seq<A>)
    requires multiset(xs) == multiset(ys)
    ensures multiset(Map(f, xs)) == multiset(Map(f, ys))
    decreases |xs|
  {
    assert |xs| == |multiset(xs)| == |ys|;
    if |xs| > 0 {
      var x := xs[0];
      assert x in multiset(ys);
      var j :| 0 <= j < |ys| && ys[j] == x;
      var rest := ys[..j] + ys[j + 1..];
      assert ys == ys[..j] + [x] + ys[j + 1..];
      assert xs == [x] + xs[1..];
      assert multiset(xs[1..]) == multiset(rest) by {
        assert multiset(xs[1..]) == multiset(xs) - multiset{x};
        assert multiset(rest) == multiset(ys) - multiset{x};
      }
      MapPermutation(f, xs[1..], rest);
      MapAppend(f, ys[..j] + [x], ys[j + 1..]);
      MapAppend(f, ys[..j], [x]);
      MapAppend(f, ys[..j], ys[j + 1..]);
      MapAppend(f, [x], xs[1..]);
    }
  }
}

=== FILE: session.dfy ===
/**
 * `SessionManager` of src/modules/SessionManager/index.ts: the connection settings (host,
 * whitelist, timeout) and the current session, changed by `requestConnect`,
 * `getConnectionData` and `disconnect`.  Each method is a transition from the old manager to
 * the new one, given the signer's reply.
 */
module Session {
  import opened Wrappers
  import opened Bytes
  import opened Foreign
  import opened Protocol
  import Rpc
  import Identity
  import Agent

  /** `{agent, principalId, accountId}`. */
  datatype SessionData = SessionData(agent: Agent.PlugAgent, principalId: string, accountId: string)

  /** The manager's state; `host` is `None` once a connection reply without a host is adopted. */
  datatype SessionManager = SessionManager(
    host: Option<string>, whitelist: seq<string>, timeout: int, session: Option<SessionData>, updating: bool)

  const DefaultTimeout: int := 120000

  /** `x || fallback` for a string. */
  function OrString(x: Option<string>, fallback: string): string {
    if x.Some? && x.value != "" then x.value else fallback
  }

  /** `x || fallback` for a number. */
  function OrNumber(x: Option<int>, fallback: int): int {
    if x.Some? && x.value != 0 then x.value else fallback
  }

  /** `new SessionManager({host, whitelist, timeout, rpc})`. */
  function NewSessionManager(host: Option<string>, whitelist: Option<seq<string>>, timeout: Option<int>)
    : (m: SessionManager)
    ensures m.session.None? && !m.updating
    ensures m.host.Some? && m.host.value != ""
    ensures m.timeout != 0
    ensures host.None? ==> m.host == Some("https://mainnet.dfinity.network")
    ensures host.Some? && host.value != "" ==> m.host == host
    ensures host == Some("") ==> m.host == Some(Agent.IcMainnetUrls[0])
    ensures whitelist.None? ==> m.whitelist == []
    ensures whitelist.Some? ==> m.whitelist == whitelist.value
    ensures timeout.None? ==> m.timeout == 120000
    ensures timeout.Some? && timeout.value != 0 ==> m.timeout == timeout.value
    ensures timeout == Some(0) ==> m.timeout == 120000
  {
    SessionManager(Some(OrString(host, Agent.IcMainnetUrls[0])), whitelist.GetOr([]), OrNumber(timeout, DefaultTimeout),
                   None, false)
  }

  /** `getSession()`. */
  function GetSession(m: SessionManager): Option<SessionData> {
    m.session
  }

  /**
   * `data` is the session `createSession(publicKey)` builds over `whitelist` and `host`: an agent
   * over the decoded key, and the ids of that key's self-authenticating principal.
   */
  ghost predicate BuiltFrom(lib: Library, data: SessionData, whitelist: seq<string>, host: string, publicKey: string) {
    var principal := lib.selfAuthenticating(lib.secp256k1Der(lib.hexToBytes(publicKey)));
    && data.agent.identity.rawKey == lib.hexToBytes(publicKey)
    && data.agent.identity.whitelist == whitelist
    && data.agent.host == host
    && data.principalId == lib.principalText(principal)
    && data.accountId == lib.accountId(principal)
  }

  /**
   * `createSession(publicKey)`: an agent over the stored whitelist and host (the proxy host when
   * none is stored), and the principal and account id it derives.  No transport call is made.
   */
  function CreateSession(lib: Library, m: SessionManager, publicKey: string): (r: (SessionData, SessionManager))
    ensures r.1 == m.(session := Some(r.0))
    ensures GetSession(r.1) == Some(r.0)
    ensures r.0.agent.identity.whitelist == m.whitelist
    ensures r.0.agent.host == OrString(m.host, Agent.PlugProxyHost)
    ensures r.0.agent.idls == map[]
    ensures BuiltFrom(lib, r.0, m.whitelist, OrString(m.host, Agent.PlugProxyHost), publicKey)
    ensures var principal := lib.selfAuthenticating(lib.secp256k1Der(lib.hexToBytes(publicKey)));
      r.0.principalId == lib.principalText(principal) && r.0.accountId == lib.accountId(principal)
  {
    var agent := Agent.PrivateCreateAgent(lib, publicKey, map[], None, Some(m.whitelist), Some(OrString(m.host, Agent.PlugProxyHost)));
    var (principal, identity) := Identity.GetPrincipal(lib, agent.identity);
    var data := SessionData(agent.(identity := identity), lib.principalText(principal), lib.accountId(principal));
    (data, m.(session := Some(data)))
  }

  /** What the signer answers `getConnectionData`. */
  datatype ConnectionReply = ConnectionReply(
    host: Option<string>, whitelist: Option<seq<string>>, timeout: Option<int>, publicKey: Option<string>)

  const EmptyConnection: ConnectionReply := ConnectionReply(None, None, None, None)

  /** `{sessionData, connection}`; a connection of `None` is `undefined`. */
  datatype ConnectionData = ConnectionData(sessionData: Option<SessionData>, connection: Option<ConnectionReply>)

  /** A transition: the dispatches made, the manager afterwards, and what the method returned. */
  datatype Step<T> = Step(trace: seq<Dispatch>, manager: SessionManager, result: Result<T, Agent.AgentError>)

  /** `getConnectionData()`. */
  function GetConnectionData(lib: Library, m: SessionManager, metadata: Metadata, reply: Rpc.Reply<ConnectionReply>)
    : (s: Step<ConnectionData>)
    ensures m.updating ==> s == Step([], m, Success(ConnectionData(None, Some(EmptyConnection))))
    ensures !m.updating ==> |s.trace| >= 1 && s.trace[0] == Dispatch(Request.GetConnectionData(metadata.url), DefaultConfig)
    ensures s.result.Success?
    ensures !m.updating && reply.Resolved? && reply.value.publicKey.Some? && reply.value.publicKey.value != "" ==>
      var c := reply.value;
      && s.manager.host == c.host && s.manager.whitelist == c.whitelist.GetOr([])
      && s.manager.timeout == OrNumber(c.timeout, 120000)
      && s.manager.session.Some? && s.result.value.sessionData == s.manager.session
      && s.result.value.connection == Some(c)
      && BuiltFrom(lib, s.manager.session.value, c.whitelist.GetOr([]), OrString(c.host, Agent.PlugProxyHost),
                   c.publicKey.value)
    ensures !(reply.Resolved? && reply.value.publicKey.Some? && reply.value.publicKey.value != "") ==>
      s.manager == m && s.result.value.sessionData.None?
  {
    if m.updating then Step([], m, Success(ConnectionData(None, Some(EmptyConnection))))
    else
      var (trace, answer) := Rpc.Call(metadata, Request.GetConnectionData(metadata.url), None, reply);
      match answer
      case Routed(_, _) => Step(trace, m, Success(ConnectionData(None, None)))
      case Answered(c) =>
        if c.publicKey.Some? && c.publicKey.value != "" then
          var adopted := m.(host := c.host, whitelist := c.whitelist.GetOr([]), timeout := OrNumber(c.timeout, DefaultTimeout));
          var (data, m1) := CreateSession(lib, adopted, c.publicKey.value);
          Step(trace, m1, Success(ConnectionData(Some(data), Some(c))))
        else Step(trace, m, Success(ConnectionData(None, Some(c))))
  }

  /** `RequestConnectParams`: every field optional. */
  datatype ConnectParams = ConnectParams(whitelist: Option<seq<string>>, host: Option<string>, timeout: Option<int>)

  /** The echoed connection `{host, whitelist, timeout, publicKey}`. */
  datatype Connection = Connection(host: string, whitelist: seq<string>, timeout: int, publicKey: string)

  /** `requestConnect(args)`; destructuring defaults apply only to absent fields. */
  function RequestConnect(lib: Library, m: SessionManager, metadata: Metadata, args: ConnectParams, reply: Rpc.Reply<string>)
    : (s: Step<(SessionData, Connection)>)
    ensures var wl := args.whitelist.GetOr([]); var t := args.timeout.GetOr(120000);
      |s.trace| >= 1 && s.trace[0] == Dispatch(Request.RequestConnect(metadata, wl, t), DefaultConfig)
    ensures s.manager.host == Some(args.host.GetOr(Agent.PlugProxyHost))
    ensures s.manager.whitelist == args.whitelist.GetOr([])
    ensures s.manager.timeout == args.timeout.GetOr(120000)
    ensures s.manager.updating == m.updating
    ensures s.result.Success? <==> reply.Resolved?
    ensures reply.Rejected? ==> s.manager.session == m.session
    ensures s.result.Success? ==>
      && s.manager.session == Some(s.result.value.0)
      && s.result.value.1 == Connection(args.host.GetOr(Agent.PlugProxyHost), args.whitelist.GetOr([]),
                                        args.timeout.GetOr(120000), reply.value)
      && BuiltFrom(lib, s.result.value.0, args.whitelist.GetOr([]), OrString(args.host, Agent.PlugProxyHost),
                   reply.value)
  {
    var wl := args.whitelist.GetOr([]);
    var host := args.host.GetOr(Agent.PlugProxyHost);
    var timeout := args.timeout.GetOr(DefaultTimeout);
    var (trace, answer) := Rpc.Call(metadata, Request.RequestConnect(metadata, wl, timeout), None, reply);
    var replaced := m.(host := Some(host), whitelist := wl, timeout := timeout);
    match answer
    case Routed(_, _) => Step(trace, replaced, Failure(Agent.NoPublicKey))
    case Answered(publicKey) =>
      var (data, m1) := CreateSession(lib, replaced, publicKey);
      Step(trace, m1, Success((data, Connection(host, wl, timeout, publicKey))))
  }

  /** The whitelist after `requestConnect` is the requested one: the old one is never merged in. */
  lemma RequestConnectReplacesWhitelist(lib: Library, m: SessionManager, metadata: Metadata, wl: seq<string>,
                                        reply: Rpc.Reply<string>, c: string)
    requires c in m.whitelist && c !in wl
    ensures c !in RequestConnect(lib, m, metadata, ConnectParams(Some(wl), None, None), reply).manager.whitelist
  {
  }

  /** `disconnect()`: the session is cleared whatever the signer answers. */
  function Disconnect(m: SessionManager, metadata: Metadata, reply: Rpc.Reply<()>): (s: Step<()>)
    ensures |s.trace| >= 1 && s.trace[0] == Dispatch(Request.Disconnect(metadata.url), DefaultConfig)
    ensures s.manager == m.(session := None)
    ensures GetSession(s.manager).None?
    ensures s.result.Success?
  {
    var (trace, _) := Rpc.Call(metadata, Request.Disconnect(metadata.url), None, reply);
    Step(trace, m.(session := None), Success(()))
  }

  /** Connecting and then disconnecting leaves the requested settings and no session. */
  lemma ConnectThenDisconnect(lib: Library, m: SessionManager, metadata: Metadata, args: ConnectParams,
                              reply: Rpc.Reply<string>, bye: Rpc.Reply<()>)
    ensures var connected := RequestConnect(lib, m, metadata, args, reply).manager;
      var after := Disconnect(connected, metadata, bye).manager;
      && after.session.None?
      && after.whitelist == args.whitelist.GetOr([])
      && after.host == Some(args.host.GetOr(Agent.PlugProxyHost))
  {
  }

  /**
   * `getSession()` reports the session each transition leaves: the one `requestConnect` built
   * from the returned key, and none after `disconnect`.
   */
  lemma GetSessionAfterConnect(lib: Library, m: SessionManager, metadata: Metadata, args: ConnectParams,
                               key: string, bye: Rpc.Reply<()>)
    ensures var s := RequestConnect(lib, m, metadata, args, Rpc.Resolved(key));
      && GetSession(s.manager).Some?
      && BuiltFrom(lib, GetSession(s.manager).value, args.whitelist.GetOr([]), OrString(args.host, Agent.PlugProxyHost), key)
      && GetSession(Disconnect(s.manager, metadata, bye).manager).None?
  {
  }

  /** `updating` is never set by any method, so a fresh manager always asks the signer. */
  lemma FreshManagerAsks(lib: Library, host: Option<string>, whitelist: Option<seq<string>>, timeout: Option<int>,
                         metadata: Metadata, reply: Rpc.Reply<ConnectionReply>)
    ensures GetConnectionData(lib, NewSessionManager(host, whitelist, timeout), metadata, reply).trace != []
  {
  }
}

=== FILE: sign.dfy ===
/**
 * src/utils/sign.ts: deciding whether a sign request's arguments can be decoded, decoding them,
 * the sign callback `signFactory` builds, and the sign info of a batch transaction.
 */
module Sign {
  import opened Wrappers
  import opened Bytes
  import opened JsValue
  import opened Foreign
  import opened Protocol
  import opened Transactions
  import Rpc

  /** `ArgsTypesOfCanister`: for each canister id, each method's argument types. */
  type ArgsTypesOfCanister = map<string, map<string, ArgTypes>>

  /** `canDecodeArgs(signInfo, argsTypes)`, with JavaScript truthiness on each field. */
  function CanDecodeArgs(signInfo: Option<SignInfo>, argsTypes: ArgsTypesOfCanister): (r: bool)
    ensures r <==>
      && signInfo.Some?
      && signInfo.value.canisterId.Some? && signInfo.value.canisterId.value != ""
      && signInfo.value.methodName.Some? && signInfo.value.methodName.value != ""
      && signInfo.value.arguments.Some?
      && signInfo.value.canisterId.value in argsTypes
      && signInfo.value.methodName.value in argsTypes[signInfo.value.canisterId.value]
  {
    signInfo.Some? &&
    var info := signInfo.value;
    && Truthy(OptString(info.canisterId))
    && Truthy(OptString(info.methodName))
    && Truthy(if info.arguments.Some? then Buffer(info.arguments.value) else Undefined)
    && var canister := OptString(info.canisterId).s;
    canister in argsTypes &&
    var methods := argsTypes[canister];
    OptString(info.methodName).s in methods
  }

  /** `decodeArgs(signInfo, argsTypes)`: `None` (undefined) unless the arguments can be decoded. */
  function DecodeArgs(lib: Library, signInfo: SignInfo, argsTypes: ArgsTypesOfCanister): (r: Option<seq<JsValue>>)
    ensures r.Some? <==> CanDecodeArgs(Some(signInfo), argsTypes)
    ensures r.Some? ==> r.value == lib.idlDecode(
      argsTypes[signInfo.canisterId.value][signInfo.methodName.value], signInfo.arguments.value)
  {
    if CanDecodeArgs(Some(signInfo), argsTypes) then
      Some(lib.idlDecode(argsTypes[signInfo.canisterId.value][signInfo.methodName.value],
                         signInfo.arguments.value))
    else None
  }

  /** The sign info `signFactory` forwards: decoded arguments filled in, `preApprove` added. */
  function PreparedSignInfo(lib: Library, argsTypes: ArgsTypesOfCanister, preApprove: bool, signInfo: Option<SignInfo>)
    : (r: SignInfo)
    ensures r.preApprove == Some(preApprove)
    ensures signInfo.None? ==> r == EmptySignInfo.(preApprove := Some(preApprove))
    ensures signInfo.Some? ==>
      && r.methodName == signInfo.value.methodName && r.requestType == signInfo.value.requestType
      && r.canisterId == signInfo.value.canisterId && r.sender == signInfo.value.sender
      && r.arguments == signInfo.value.arguments && r.manual == signInfo.value.manual
    ensures signInfo.Some? && signInfo.value.arguments.None? ==> r.decodedArguments == Some([])
    ensures signInfo.Some? && signInfo.value.arguments.Some? ==>
      (r.decodedArguments.Some? <==> CanDecodeArgs(signInfo, argsTypes))
    ensures signInfo.Some? && signInfo.value.arguments.Some? && CanDecodeArgs(signInfo, argsTypes) ==>
      r.decodedArguments == Some(lib.parseBigint(lib.idlDecode(
        argsTypes[signInfo.value.canisterId.value][signInfo.value.methodName.value], signInfo.value.arguments.value)))
  {
    match signInfo
    case None => EmptySignInfo.(preApprove := Some(preApprove))
    case Some(info) =>
      var decoded :=
        if info.arguments.Some? then
          (match DecodeArgs(lib, info, argsTypes)
           case Some(args) => Some(lib.parseBigint(args))
           case None => None)
        else Some([]);
      info.(decodedArguments := decoded, preApprove := Some(preApprove))
  }

  datatype SignFailure =
    /** The `requestSign` call was answered by an error handler, whose result has no bytes. */
    | NoSignature

  /**
   * `signFactory(clientRPC, argsTypes, preApprove)(payload, signInfo)`: exactly one
   * `requestSign` call through the RPC manager, whose resolved bytes are the signature.
   */
  function SignFactory(lib: Library, argsTypes: ArgsTypesOfCanister, preApprove: Option<bool>, metadata: Metadata,
                       payload: Bytes, signInfo: Option<SignInfo>, reply: Rpc.Reply<Bytes>)
    : (r: (seq<Dispatch>, Result<Bytes, SignFailure>))
    ensures |r.0| >= 1
    ensures r.0[0] == Dispatch(RequestSign(payload,
      PreparedSignInfo(lib, argsTypes, preApprove.GetOr(false), signInfo)), DefaultConfig)
    ensures forall k :: 1 <= k < |r.0| ==> r.0[k].request.Handle?
    ensures r.1.Success? <==> reply.Resolved?
    ensures reply.Resolved? ==> r.1.value == reply.value
  {
    var info := PreparedSignInfo(lib, argsTypes, preApprove.GetOr(false), signInfo);
    var (trace, answer) := Rpc.Call(metadata, RequestSign(payload, info), None, reply);
    match answer
    case Answered(bytes) => (trace, Success(bytes))
    case Routed(_, _) => (trace, Failure(NoSignature))
  }

  /** `_fields.find(([name]) => name === methodName)`: the first method of that name. */
  function FindMethod(service: Service, methodName: string): (r: Option<FuncDesc>)
    ensures r.None? <==> forall i :: 0 <= i < |service| ==> service[i].0 != methodName
    ensures r.Some? ==> exists i :: 0 <= i < |service| && service[i] == (methodName, r.value) &&
                                    forall j :: 0 <= j < i ==> service[j].0 != methodName
    decreases |service|
  {
    if |service| == 0 then None
    else if service[0].0 == methodName then Some(service[0].1)
    else
      var r := FindMethod(service[1..], methodName);
      if r.Some? then
        var i :| 0 <= i < |service[1..]| && service[1..][i] == (methodName, r.value)
          && forall j :: 0 <= j < i ==> service[1..][j].0 != methodName;
        assert service[i + 1] == (methodName, r.value);
        r
      else r
  }

  /** `getSignInfoFromTransaction(transaction, sender)`. */
  function GetSignInfoFromTransaction(lib: Library, tx: Transaction, sender: string): (r: SignInfo)
    ensures r.methodName == Some(tx.methodName)
    ensures r.requestType == Some("unknown") && r.preApprove == Some(false)
    ensures r.canisterId == Some(tx.canisterId) && r.sender == Some(sender)
    ensures r.manual.None?
    ensures r.decodedArguments == (if tx.args.ArgsList? then Some(tx.args.items) else None)
    ensures r.arguments.Some?
    ensures r.arguments.value != [] ==>
      && tx.args.ArgsList? && FindMethod(tx.idl, tx.methodName).Some?
      && r.arguments.value == lib.idlEncode(FindMethod(tx.idl, tx.methodName).value.argTypes, tx.args.items)
    ensures tx.args.ArgsList? && FindMethod(tx.idl, tx.methodName).Some? ==>
      r.arguments.value == lib.idlEncode(FindMethod(tx.idl, tx.methodName).value.argTypes, tx.args.items)
  {
    var found := FindMethod(tx.idl, tx.methodName);
    // `methodName || transaction.methodName`: the found name equals the transaction's anyway.
    var decoded := if tx.args.ArgsList? then Some(tx.args.items) else None;
    SignInfo(
      methodName := Some(tx.methodName),
      requestType := Some("unknown"),
      canisterId := Some(tx.canisterId),
      sender := Some(sender),
      arguments := Some(if decoded.Some? && found.Some? then lib.idlEncode(found.value.argTypes, tx.args.items) else []),
      decodedArguments := decoded,
      manual := None,
      preApprove := Some(false))
  }

  /** `r` maps exactly the method names of `service`. */
  ghost predicate NamesDomain(service: Service, r: map<string, ArgTypes>) {
    forall name :: name in r <==> exists i :: 0 <= i < |service| && service[i].0 == name
  }

  /** Each name's entry in `r` holds the argument types of its last declaration in `service`. */
  ghost predicate LastDeclared(service: Service, r: map<string, ArgTypes>) {
    forall i :: 0 <= i < |service| && (forall j :: i < j < |service| ==> service[j].0 != service[i].0) ==>
      service[i].0 in r && r[service[i].0] == service[i].1.argTypes
  }

  /** Recording one more method on top of the map of the methods before it. */
  lemma ArgTypesSnoc(service: Service, front: map<string, ArgTypes>)
    requires |service| > 0
    requires NamesDomain(service[..|service| - 1], front) && LastDeclared(service[..|service| - 1], front)
    ensures NamesDomain(service, front[service[|service| - 1].0 := service[|service| - 1].1.argTypes])
    ensures LastDeclared(service, front[service[|service| - 1].0 := service[|service| - 1].1.argTypes])
  {
    assert forall i :: 0 <= i < |service| - 1 ==> service[..|service| - 1][i] == service[i];
  }

  /** `getArgTypes(interfaceFactory)`: each method name mapped to its argument types. */
  function GetArgTypes(service: Service): (r: map<string, ArgTypes>)
    ensures forall name :: name in r <==> exists i :: 0 <= i < |service| && service[i].0 == name
    ensures forall i :: 0 <= i < |service| && (forall j :: i < j < |service| ==> service[j].0 != service[i].0) ==>
      r[service[i].0] == service[i].1.argTypes
    decreases |service|
  {
    if |service| == 0 then map[]
    else
      var last := service[|service| - 1];
      var front := GetArgTypes(service[..|service| - 1]);
      ArgTypesSnoc(service, front);
      front[last.0 := last.1.argTypes]
  }

  ghost predicate DistinctNames(service: Service) {
    forall i, j :: 0 <= i < j < |service| ==> service[i].0 != service[j].0
  }

  /**
   * With distinct method names, the argument types `getArgTypes` records are those of the
   * method `getSignInfoFromTransaction` finds, and a name is recorded exactly when it is found.
   */
  lemma ArgTypesAgreeWithFind(service: Service, methodName: string)
    requires DistinctNames(service)
    ensures methodName in GetArgTypes(service) <==> FindMethod(service, methodName).Some?
    ensures FindMethod(service, methodName).Some? ==>
      GetArgTypes(service)[methodName] == FindMethod(service, methodName).value.argTypes
  {
    var r := FindMethod(service, methodName);
    if r.Some? {
      var i :| 0 <= i < |service| && service[i] == (methodName, r.value)
        && forall j :: 0 <= j < i ==> service[j].0 != methodName;
      assert forall j :: i < j < |service| ==> service[j].0 != service[i].0;
    }
  }

  /** With repeated method names, `getArgTypes` keeps the last declaration. */
  lemma ArgTypesLastWins(name: string, f1: FuncDesc, f2: FuncDesc)
    ensures GetArgTypes([(name, f1), (name, f2)]) == map[name := f2.argTypes]
    ensures FindMethod([(name, f1), (name, f2)], name) == Some(f1)
  {
    var s := [(name, f1), (name, f2)];
    assert s[..1] == [(name, f1)];
    assert s[..1][..0] == [];
  }
}

=== FILE: transactions.dfy ===
/**
 * The transaction records a dapp hands to `batchTransactions` (src/Provider/interfaces.ts),
 * with every callback replaced by what it does: a total function to its normal result or the
 * value it throws.
 */
module Transactions {
  import opened Wrappers
  import opened JsValue
  import opened Foreign

  /** A callback either returns (its promise resolves) or throws (its promise rejects). */
  datatype Completion<+T> = Normal(value: T) | Threw(error: JsValue)

  /** One service method of a Candid interface: its argument types. */
  datatype FuncDesc = FuncDesc(argTypes: ArgTypes)

  /** What `interfaceFactory({ IDL })` builds: the service's `_fields`, in declaration order. */
  type Service = seq<(string, FuncDesc)>

  /** `{transactionIndex, response}`: what an earlier transaction's `onSuccess` passed on. */
  datatype PrevResponse = PrevResponse(transactionIndex: nat, response: JsValue)

  /** `transaction.args`: a builder from the earlier responses, an argument array, or anything else. */
  datatype TxArgs =
    | ArgsFn(build: seq<PrevResponse> -> Completion<seq<JsValue>>)
    | ArgsList(items: seq<JsValue>)
    | ArgsOther(value: JsValue)

  datatype Transaction = Transaction(
    idl: Service,
    canisterId: string,
    methodName: string,
    args: TxArgs,
    /** What awaiting `actor[methodName](...args)` gives for the given arguments. */
    invoke: seq<JsValue> -> Completion<JsValue>,
    onSuccess: Option<JsValue -> Completion<JsValue>>,
    onFail: Option<(JsValue, seq<PrevResponse>) -> Completion<JsValue>>)
}

=== FILE: wrappers.dfy ===
/** Option and Result: the failure-compatible datatypes used throughout the model. */
module Wrappers {

  datatype Option<+T> = None | Some(value: T) {

    /** The value, or a default when absent. */
    function GetOr(default: T): T {
      match this
      case Some(v) => v
      case None => default
    }
  }

  /** A JavaScript operation either produces a value or throws (rejects) with an error. */
  datatype Result<+T, +E> = Success(value: T) | Failure(error: E) {

    predicate IsFailure() {
      Failure?
    }

    function PropagateFailure<U>(): Result<U, E>
      requires Failure?
    {
      Failure(error)
    }

    function Extract(): T
      requires Success?
    {
      value
    }
  }
}
